=== FILE: README.md ===
# Trinity portal relay — a Dafny model

The system lets a student sign in to the Catholic University of Korea
portal ("Trinity", `uportal.catholic.ac.kr`) through a web gateway. The
HTTP gateway holds no session of its own. It sends each step of the
portal's SAML sign-in over the message broker to the user service. The
user service talks to the portal and returns the next artifact, such as
the `samlRequest`, the `SAMLResponse` or the CSRF token. It also returns
the portal's cookies. The gateway keeps the artifacts and the portal's
cookies in the browser as its own cookies, and sends them back on the
next step.

Around that relay sit:
- a parsing service that looks up a course section and its free seats;
- a management area guarded by an administrator session cookie;
- a bearer-token guard;
- start-up code that creates one broker topic per request or reply topic.

The model covers the logic that decides what is relayed:

| file | module | what it holds |
|---|---|---|
| `wrappers.dfy` | `Wrappers` | `Option`, `Result`, and `Outcome` (a broker call that replied or failed) |
| `text.dfy` | `Text` | JavaScript string behaviour: `split`, `join`, `trim` (ECMAScript white space), `String(n)` for integers |
| `seqs.dfy` | `Seqs` | order-preserving `filter` |
| `token_scan.dfy` | `TokenScan` | the three fixed patterns scanned in portal pages, with leftmost-and-greedy first-match semantics |
| `types.dfy` | `Types` | the records exchanged between the gateway and the services |
| `user_service.dfy` | `UserService` | the three portal stages; the portal is a function from request to reply |
| `user_controller.dfy` | `UserController` | the user service's handlers: login event, user-info enrichment, topic creation |
| `provisioning.dfy` | `Provisioning` | the create-each-topic loop shared by the gateway and the user service |
| `response.dfy` | `Http` | the outgoing HTTP response: cookie jar, status, JSON body |
| `school_cookies.dfy` | `SchoolCookies` | the gateway's cookie relay: picking school cookies from a request, re-setting portal `Set-Cookie` strings, clearing cookies |
| `gateway.dfy` | `Gateway` | the gateway's handlers and its reply-topic list |
| `parsing_service.dfy` | `ParsingService` | course-section and free-seat lookups over the decoded portal listings |
| `auth_guard.dfy` | `AuthGuard` | the `Authorization: Bearer` guard |

The model makes these modelling choices:
- Each portal HTTP exchange is an input: a function from the request sent to the reply received. A reply is its status, `Location` header, `Set-Cookie` list and body.
- Each broker call is an `Outcome`: the remote handler's reply, or `Failed` when the call is rejected. On `Failed`, the gateway handler throws and leaves the response untouched.
- Topic creation is a list of outcomes in call order: created, already exists, or failed.
- The gateway's response cookie jar is a map from cookie name to the last directive for it. The directive is either set to a value or cleared.

Two behaviours of the code are easy to misread:
- The user service joins cookie lists by plain concatenation (`Auth`, `Login`). It does not merge them by name, so a later cookie with an earlier cookie's name is kept beside it.
- The stage-3 follow-up request goes to a fixed address: plain `http`, ending in an invisible U+2060. The `Location` header is only checked for presence.

## Model

| member | source | states |
|---|---|---|
| `Text.Split` | apps/api-gateway/src/api-gateway.controller.ts:485-486 | `split(c)` returns at least one piece, and no piece contains the separator |
| `Text.JoinSplit` | apps/api-gateway/src/api-gateway.controller.ts:485-486 | joining the pieces of `split(c)` with `c` gives back the original text |
| `Text.SplitJoin` | apps/user-service/src/user-service.service.ts:37-39 | splitting a join of separator-free pieces gives back the pieces |
| `Text.Trim` | apps/api-gateway/src/api-gateway.controller.ts:488 | the result of `trim()` has no ECMAScript white space at either end and is no longer than its input |
| `Text.TrimPiece` | apps/api-gateway/src/api-gateway.controller.ts:488 | what `trim()` keeps is a contiguous piece of its input, unchanged, and everything dropped before and after that piece is white space |
| `Text.TrimKeeps` | apps/api-gateway/src/api-gateway.controller.ts:488 | trimming text that is already trimmed changes nothing |
| `Text.NumberText` | apps/parsing-service/src/parsing-service.service.ts:73 | `String(n)` of an integer is non-empty decimal text, with a leading minus sign when negative, and is never the placeholder `-` |
| `Text.NaturalText` | apps/parsing-service/src/parsing-service.service.ts:73 | the digits of a natural number have no leading zero (except for 0 itself) |
| `Text.NumberTextValue` | apps/parsing-service/src/parsing-service.service.ts:73 | `String(n)` read back as a signed decimal is `n` |
| `Text.NumberTextInjective` | apps/parsing-service/src/parsing-service.service.ts:141 | different numbers are written differently |
| `Seqs.Filter` | apps/user-service/src/user-service.service.ts:42-47 | never longer than the input; every kept element comes from the input and satisfies the predicate, and every element that satisfies it is kept |
| `Seqs.FilterAppend` | apps/user-service/src/user-service.service.ts:42-47 | filtering a concatenation filters each part in turn, so filtering keeps the original order |
| `TokenScan.FirstMatch` | apps/user-service/src/user-service.service.ts:70 | a found token is non-empty and contains no `"` |
| `TokenScan.FieldValueFirstMatch` | apps/user-service/src/user-service.service.ts:70-72 | `name="…"\s+value="…"`: nothing is found exactly when no occurrence exists; otherwise the token is the value of the leftmost occurrence |
| `TokenScan.CsrfFirstMatch` | apps/user-service/src/user-service.service.ts:171 | `id="_csrf"[^>]*content="…"`: nothing is found exactly when no occurrence exists; otherwise the token comes from the leftmost occurrence and, there, from the last `content="…"` before any `>` |
| `UserService.ParseCookies` | apps/user-service/src/user-service.service.ts:37-39 | one entry per `Set-Cookie` header, in order; each entry is the header's text up to, not including, its first `;` |
| `UserService.ParseCookiesOne` | apps/user-service/src/user-service.service.ts:37-39 | a header `pair; attributes` yields exactly `pair` |
| `UserService.PortalCookies` | apps/user-service/src/user-service.service.ts:42-46 | every cookie put in the header has a name (text before the first `=`) other than `samlRequest` and `samlResponse`, and every such cookie of the input is put in |
| `UserService.FormatCookieHeaderAppend` | apps/user-service/src/user-service.service.ts:42-47 | the header for a concatenation is the two headers joined by `"; "`, or just one of them when the other part contributes nothing |
| `UserService.FormatCookieHeader` | apps/user-service/src/user-service.service.ts:42-47 | the header is empty when no cookie qualifies, and otherwise starts with the first qualifying cookie |
| `UserService.FormatCookieHeaderAll` | apps/user-service/src/user-service.service.ts:42-47 | when no cookie is a SAML artifact, the header is all the cookies joined with `"; "`, in order |
| `UserService.LoginForm` | apps/user-service/src/user-service.service.ts:50-79 | a status outside 200..299 fails with the request error; otherwise success exactly when the samlRequest pattern is found, and its absence gives the samlRequest-not-found error; on success the token is the first match (non-empty, no `"`) and the cookies are the parsed `Set-Cookie` headers |
| `UserService.Auth` | apps/user-service/src/user-service.service.ts:82-123 | fails with the request error exactly when the status is neither 200..299 nor 302; fails with the wrong-id-or-password error exactly when the status is accepted and no `SAMLResponse` is found; otherwise returns the first match and the input cookies followed by the parsed ones |
| `UserService.Login` | apps/user-service/src/user-service.service.ts:126-183 | succeeds exactly when the status is 301 or 302, `Location` is non-empty, the follow-up reply is ok and a CSRF token is found; a status other than 301/302 gives the generic failure; a redirect without `Location` gives the missing-redirect error, a failed follow-up the redirect-request error, and a missing token the CSRF-not-found error; on success the cookies are the input followed by the follow-up's parsed cookies, and there is no access token |
| `UserService.LoginIgnoresRedirectCookies` | apps/user-service/src/user-service.service.ts:151-178 | the redirect reply's own `Set-Cookie` headers do not affect the result |
| `Provisioning.CreatedTopics` | apps/user-service/src/user-service.controller.ts:32-46 | no more topics are recorded than were attempted |
| `Provisioning.CreatedTopicsMember` | apps/user-service/src/user-service.controller.ts:32-46 | a topic is recorded exactly when a create call for it reported success; a failure or "already exists" does not stop the loop |
| `Provisioning.CreatedTopicsAppend` | apps/api-gateway/src/api-gateway.controller.ts:77-94 | provisioning a concatenated list records the first part's topics, then the second's |
| `Provisioning.AllCreated` | apps/user-service/src/user-service.controller.ts:32-46 | when every call succeeds, every topic is recorded, in order |
| `Provisioning.CreateEach` | apps/user-service/src/user-service.controller.ts:32-46 | the loop records exactly `CreatedTopics` of its topics and outcomes |
| `UserController.Enriched` | apps/user-service/src/user-service.controller.ts:103-109 | `shtm` is replaced only by a non-empty term from management and `yyyy` only by a non-empty year; every other field is kept |
| `UserController.TermOrNothing` | apps/user-service/src/user-service.controller.ts:92-101 | a failed management call counts as neither term nor year; `UserController.EnrichedWithoutTerm` shows the record then comes back unchanged |
| `UserController.EnrichedWithoutTerm` | apps/user-service/src/user-service.controller.ts:92-109 | after a failed management call the user record is returned unchanged |
| `UserController.EnrichedIdempotent` | apps/user-service/src/user-service.controller.ts:103-109 | laying the same term over the record twice changes nothing more |
| `UserController.UserServiceController.OnModuleInit` | apps/user-service/src/user-service.controller.ts:23-49 | records exactly the created topics among the five request topics, in order |
| `UserController.UserServiceController.Login` | apps/user-service/src/user-service.controller.ts:70-78 | the stage-3 result is returned unchanged; the `management.loginSuccess` event is emitted once after a successful stage and never after a failed one |
| `UserController.UserServiceController.GetUserInfo` | apps/user-service/src/user-service.controller.ts:87-112 | a failed lookup sends nothing; otherwise one `management.getShtmYyyy` request is sent and the record comes back enriched |
| `SchoolCookies.Lookup` | apps/api-gateway/src/api-gateway.controller.ts:146-147 | `cookies[name] ?? ''`: empty when the request has no such cookie, else that cookie's value |
| `SchoolCookies.ExtractSchoolCookies` | apps/api-gateway/src/api-gateway.controller.ts:474-479 | never longer than the request's cookies, and every cookie other than `samlRequest`, `samlResponse` and `csrf` appears as `name=value` |
| `SchoolCookies.ExtractSchoolCookiesOnlySchool` | apps/api-gateway/src/api-gateway.controller.ts:474-479 | every relayed entry is the `name=value` rendering of a request cookie outside the three excluded names |
| `SchoolCookies.ExtractSchoolCookiesKeepsAll` | apps/api-gateway/src/api-gateway.controller.ts:474-479 | when the request has none of the three excluded names, every cookie is relayed as `name=value`, in order |
| `SchoolCookies.ExtractSchoolCookiesAppend` | apps/api-gateway/src/api-gateway.controller.ts:474-479 | extraction of concatenated entries is the concatenation of the extractions (order is kept) |
| `SchoolCookies.SchoolCookie` | apps/api-gateway/src/api-gateway.controller.ts:485-488 | a re-set cookie's name and value carry no white space at either end |
| `SchoolCookies.SchoolCookieAccepts` | apps/api-gateway/src/api-gateway.controller.ts:485-488 | a string of the form non-empty name `=` non-empty value, then nothing or `;`/`=`, sets that name and value, trimmed |
| `SchoolCookies.SchoolCookieShape` | apps/api-gateway/src/api-gateway.controller.ts:485-488 | conversely, a cookie is set only for a string of that form: only the text before the first `;` matters, and the value is the segment between the first and second `=`, trimmed, so a value containing `=` (base64 padding, say) is cut at its first `=` |
| `SchoolCookies.RelayRoundTrip` | apps/api-gateway/src/api-gateway.controller.ts:474-491 | a portal cookie `name=value; attributes` whose name and value are non-empty, already trimmed and free of `;` and `=` is re-set under its own name and value, and, when the browser sends it back, is relayed as exactly the `name=value` the user service kept, unless its name is `csrf`, `samlRequest` or `samlResponse`, in which case nothing is relayed |
| `SchoolCookies.ApplySchoolCookiesAppend` | apps/api-gateway/src/api-gateway.controller.ts:482-491 | re-setting a concatenated list equals re-setting the first part, then the second |
| `SchoolCookies.ApplySchoolCookiesUntouched` | apps/api-gateway/src/api-gateway.controller.ts:482-491 | a name that no accepted portal cookie carries keeps what the jar held for it |
| `SchoolCookies.ApplySchoolCookiesLastWins` | apps/api-gateway/src/api-gateway.controller.ts:482-491 | among several portal cookies with one name, the last one's value is the one set |
| `SchoolCookies.ApplySchoolCookiesKeeps` | apps/api-gateway/src/api-gateway.controller.ts:482-491 | re-setting portal cookies removes no jar entry, and every entry afterwards is either a value set by it or what the jar held |
| `SchoolCookies.SetSchoolCookies` | apps/api-gateway/src/api-gateway.controller.ts:482-491 | the loop leaves the jar as `ApplySchoolCookies` of the old jar, and leaves status and body alone |
| `SchoolCookies.ClearAll` | apps/api-gateway/src/api-gateway.controller.ts:211-213 | every listed name ends up cleared, and every other name keeps what the jar held |
| `SchoolCookies.ClearCookies` | apps/api-gateway/src/api-gateway.controller.ts:211-213 | the loop leaves the jar as `ClearAll` of the old jar and the names |
| `Gateway.ReplyTopics` | apps/api-gateway/src/api-gateway.controller.ts:78-79 | one reply topic per request topic, in order, each the topic followed by `.reply`; `Gateway.ReplyTopicInjective` and `Gateway.ReplyTopicsDistinct` show no two request topics share one |
| `Gateway.ReplyTopicInjective` | apps/api-gateway/src/api-gateway.controller.ts:79 | different request topics have different reply topics |
| `Gateway.ReplyTopicsDistinct` | apps/api-gateway/src/api-gateway.controller.ts:78-79 | distinct request topics give distinct reply topics |
| `Gateway.AllReplyTopicsDistinct` | apps/api-gateway/src/api-gateway.controller.ts:40-79 | there are 16 request topics, and their reply topics are pairwise distinct |
| `Gateway.StartupCreated` | apps/api-gateway/src/api-gateway.controller.ts:77-94 | a request topic's reply topic is recorded at start-up exactly when the create call made for it succeeded |
| `Gateway.ApiGateway.OnModuleInit` | apps/api-gateway/src/api-gateway.controller.ts:39-98 | records exactly the created reply topics of all request topics, in the order user, management, parsing, board |
| `Gateway.ApiGateway.LoginForm` | apps/api-gateway/src/api-gateway.controller.ts:123-136 | sends `user.loginForm`; on a reply, sets `samlRequest`, re-sets the portal cookies and answers success; a failed call leaves the response untouched |
| `Gateway.ApiGateway.Auth` | apps/api-gateway/src/api-gateway.controller.ts:139-166 | sends the credentials, the `samlRequest` cookie (empty when absent) and the school cookies; on a reply, sets `samlResponse` and re-sets the portal cookies |
| `Gateway.ApiGateway.Login` | apps/api-gateway/src/api-gateway.controller.ts:169-194 | sends the `samlResponse` cookie and the school cookies; on a reply, sets `csrf`, re-sets the portal cookies, clears `samlRequest` and `samlResponse`, and answers with the access token |
| `Gateway.ApiGateway.Logout` | apps/api-gateway/src/api-gateway.controller.ts:197-216 | sends the `csrf` cookie and the school cookies; on a reply, clears every cookie name the request carried, portal or not |
| `Gateway.ApiGateway.GetUserInfo` | apps/api-gateway/src/api-gateway.controller.ts:219-233 | sends the `csrf` cookie and the school cookies; relays the user record and writes no cookie |
| `Gateway.ApiGateway.GetSubjectInfo` | apps/api-gateway/src/api-gateway.controller.ts:359-389 | sends `parsing.subjectInfo` with the `csrf` cookie (empty when absent), the school cookies and the requested subject fields; a failed call leaves the response untouched; otherwise relays the answer and writes no cookie |
| `Gateway.ApiGateway.GetGrades` | apps/api-gateway/src/api-gateway.controller.ts:392-420 | sends `parsing.grade` with the `csrf` cookie (empty when absent), the school cookies and the requested term and student; a failed call leaves the response untouched; otherwise relays the grade list and writes no cookie |
| `Gateway.ApiGateway.MngLogin` | apps/api-gateway/src/api-gateway.controller.ts:249-268 | sets `mng_session` only for a successful reply with a non-empty session id; otherwise answers 401 with the reply's message |
| `Gateway.ApiGateway.CheckSession` | apps/api-gateway/src/api-gateway.controller.ts:273-291 | a missing or empty `mng_session` answers 401 with no management call; a session the management service rejects answers 401; the request is let through exactly when the session is present and validated |
| `Gateway.ApiGateway.GetShtmYyyy` | apps/api-gateway/src/api-gateway.controller.ts:271-301 | without a session cookie: 401 `Not authenticated`, no call; with a rejected session: 401 `Invalid session`; the cookie jar is untouched on both; `management.getShtmYyyy` is sent only after the session is validated, and its term is relayed |
| `Gateway.ApiGateway.SetShtmYyyy` | apps/api-gateway/src/api-gateway.controller.ts:304-338 | without a session cookie: 401 `Not authenticated`, no call; with a rejected session: 401 `Invalid session`; the cookie jar is untouched on both; `management.setShtmYyyy` is sent only after the session is validated, and its reply is relayed |
| `Gateway.ApiGateway.MngLogout` | apps/api-gateway/src/api-gateway.controller.ts:341-356 | `management.logout` is sent only for a non-empty session; `mng_session` is cleared unless that call fails |
| `ParsingService.RowsOf` | apps/parsing-service/src/parsing-service.service.ts:58 | a missing listing array counts as empty; `ParsingService.SubjectInfoNoMatch` and `ParsingService.RemainNoFound` state what that means for a lookup |
| `ParsingService.FirstIndex` | apps/parsing-service/src/parsing-service.service.ts:60-61 | the found row is listed under the code and section, and no earlier row is; none is found only when no row is (used for both listings, lines 60-61 and 139-140) |
| `ParsingService.LimitText` | apps/parsing-service/src/parsing-service.service.ts:74 | the limit shows as `-` exactly when it is absent or zero, otherwise as its decimal text |
| `ParsingService.RemainNo` | apps/parsing-service/src/parsing-service.service.ts:84-146 | fails exactly when the seat listing's status is outside 200..299 |
| `ParsingService.RemainNoFound` | apps/parsing-service/src/parsing-service.service.ts:137-145 | with an ok listing, the answer is `String(extraCnt)` of the first matching row, and `-` exactly when no row matches |
| `ParsingService.SubjectInfo` | apps/parsing-service/src/parsing-service.service.ts:6-82 | fails with the listing error exactly when the subject listing's status is outside 200..299; an answer echoes the requested code and section and has a written-out application count |
| `ParsingService.SubjectInfoNoMatch` | apps/parsing-service/src/parsing-service.service.ts:58-81 | with an ok listing, the invalid code/section error comes exactly when no row matches |
| `ParsingService.SubjectInfoMatch` | apps/parsing-service/src/parsing-service.service.ts:60-77 | for the first matching row, the seat lookup uses that row's department; a failing seat listing fails the lookup; otherwise the answer echoes the requested code and section, takes name and department from the row, and writes out the application count, the limit (or `-`) and the free seats |
| `ParsingService.GetRemainNo` | apps/parsing-service/src/parsing-service.service.ts:84-146 | the linear search returns exactly `RemainNo` |
| `ParsingService.GetSubjectInfo` | apps/parsing-service/src/parsing-service.service.ts:6-82 | the linear search returns exactly `SubjectInfo` |
| `AuthGuard.ExtractToken` | libs/auth/auth.guard.ts:36-43 | a token is found exactly when the header starts with the case-sensitive `Bearer ` (with the space), and it is the rest of the header |
| `AuthGuard.ExtractTokenRoundTrip` | libs/auth/auth.guard.ts:36-43 | any token sent after `Bearer ` is extracted unchanged |
| `AuthGuard.Decision` | libs/auth/auth.guard.ts:18-34 | "no token" exactly when no token or an empty one is extracted; an admission carries a non-empty CSRF token that the verified payload holds |
| `AuthGuard.NoTokenCases` | libs/auth/auth.guard.ts:20-24 | "no token" exactly for a missing header, a header without the `Bearer ` prefix, or the bare prefix |
| `AuthGuard.InvalidTokenCases` | libs/auth/auth.guard.ts:26-29 | a well-formed header is refused as invalid exactly when verification gives no payload or a payload without a CSRF token |
| `AuthGuard.CanActivate` | libs/auth/auth.guard.ts:18-34 | refuses exactly as `Decision` does; never answers `false`; on admission stores the payload's CSRF token on the request, and on refusal leaves it alone |

## Left out

- Broker plumbing is not modelled: request/reply correlation, `subscribeToResponseOf`, `connect` and `emit` delivery. Each call is reduced to the message sent and an outcome.
- Portal `fetch` headers other than `Cookie` and the CSRF header are left out (user agent, referer and the like). They do not affect any decision.
- JSON decoding is left out. Decoded replies are inputs, and JSON numbers are modelled as integers, so `String(n)` of a fractional number is not modelled.
- `Text.NumberText`: JavaScript writes numbers of magnitude 1e21 or more in exponent notation (`1e+21`); the model always writes plain decimal digits, because counts of that size do not occur.
- `ParsingService.LimitText`: a `NaN` limit, which JavaScript also treats as false, is not modelled, because limits are integers here.
- JWT signing and verification are a parameter of the guard. They are a library wrapper.
- The Redis counter, the TypeORM board, the file logger and the other services' controllers are not modelled. They are storage or dispatch only.
- The gateway's relays for the login count and the board are left out. They forward a request and relay the reply, with no cookie logic.
- The `logout`, `getUserInfo` and `getGrades` bodies of the user service are not part of this model. Their results are inputs.
- Cookie options (`httpOnly`) are not modelled. The jar records only the last set or clear per name, so repeated `Set-Cookie` directives for one name collapse to the last one.
- The order of the request's cookies is taken as given. JavaScript's `Object.entries` puts integer-like keys first; that is not modelled.
- The user service's `loginForm` and `auth` handlers only delegate to the stage functions, which are modelled, and so have no entry of their own. Its `logout` handler delegates to the service's `logout` body, which is not part of this model (see above).
- cookie-parser's conversion of `j:`-prefixed cookie values into parsed JSON is not modelled: every request cookie value is taken to be a string.
- `Gateway.ApiGateway.Login`: its contract does not state separately that an earlier `csrf` value is replaced. That follows from its jar equation together with `SchoolCookies.ApplySchoolCookiesUntouched`.
- A rejected portal `fetch` or `response.text()` (network failure) makes the stage throw. The portal is a total function here, so those rejections are not modelled; only status-based failures are.
- `SchoolCookies.SchoolCookie`: Express's `res.cookie` throws on a cookie name or value it considers invalid, including a name that trims to empty, partway through the loop with the earlier cookies already set. The model accepts every non-empty name and value as read, because that validation belongs to the HTTP library, which is not part of this model.

=== FILE: auth_guard.dfy ===
/**
 * The bearer-token guard in front of the authenticated endpoints. The
 * token check itself (signature, expiry) is a parameter: a function from
 * the token text to its decoded payload, or `None` when the token does not
 * verify.
 */
module AuthGuard {
  import opened Wrappers

  const Scheme: string := "Bearer "

  /** The decoded token: the CSRF token it was issued for, if it carries one. */
  datatype JwtPayload = JwtPayload(csrf: Option<string>)

  datatype GuardError =
    | NoToken       // no header, another scheme, or nothing after the scheme
    | InvalidToken  // the token does not verify, or carries no CSRF token

  /** `extractToken`: the header after the case-sensitive `Bearer ` prefix, if it has that prefix. */
  function ExtractToken(authorization: Option<string>): (r: Option<string>)
    ensures r.Some? <==> authorization.Some? && Scheme <= authorization.value
    ensures r.Some? ==> authorization.value == Scheme + r.value
  {
    if authorization.Some? && Scheme <= authorization.value
    then Some(authorization.value[|Scheme|..])
    else None
  }

  /** Whatever token is sent after the scheme comes back out unchanged. */
  lemma ExtractTokenRoundTrip(token: string)
    ensures ExtractToken(Some(Scheme + token)) == Some(token)
  {
    assert (Scheme + token)[|Scheme|..] == token;
  }

  /** The request as the guard sees it: its `Authorization` header and the CSRF slot it fills in. */
  class AuthenticatedRequest {
    const authorization: Option<string>
    var csrf: Option<string>

    constructor(authorization: Option<string>)
      ensures this.authorization == authorization && csrf.None?
    {
      this.authorization := authorization;
      csrf := None;
    }
  }

  /** The guard's decision, as a function of the header and the token check. */
  function Decision(authorization: Option<string>, verify: string -> Option<JwtPayload>): (r: Result<string, GuardError>)
    ensures r == Err(NoToken) <==> ExtractToken(authorization) in {None, Some("")}
    ensures r.Ok? ==> r.value != "" && ExtractToken(authorization).Some?
                      && verify(ExtractToken(authorization).value) == Some(JwtPayload(Some(r.value)))
  {
    var token := ExtractToken(authorization);
    if token.None? || token.value == "" then Err(NoToken)
    else
      var payload := verify(token.value);
      if payload.None? || payload.value.csrf.None? || payload.value.csrf.value == "" then Err(InvalidToken)
      else Ok(payload.value.csrf.value)
  }

  /**
   * The header cases of the "no token" refusal: no header, a header
   * without the exact `Bearer ` prefix, and the bare prefix.
   */
  lemma NoTokenCases(authorization: Option<string>, verify: string -> Option<JwtPayload>)
    ensures Decision(authorization, verify) == Err(NoToken) <==>
              authorization.None? || !(Scheme <= authorization.value) || authorization.value == Scheme
  {
    if authorization.Some? && Scheme <= authorization.value {
      assert authorization.value == Scheme + authorization.value[|Scheme|..];
    }
  }

  /** A well-formed header is refused as invalid exactly when the payload is missing or has no CSRF token. */
  lemma InvalidTokenCases(token: string, verify: string -> Option<JwtPayload>)
    requires token != ""
    ensures var payload := verify(token);
            Decision(Some(Scheme + token), verify) == Err(InvalidToken) <==>
              payload.None? || payload.value.csrf.None? || payload.value.csrf.value == ""
  {
    ExtractTokenRoundTrip(token);
  }

  /**
   * `canActivate`: admits the request (`Ok(true)`) and records the CSRF
   * token on it, or refuses it; it never answers `false`.
   */
  method CanActivate(request: AuthenticatedRequest, verify: string -> Option<JwtPayload>)
    returns (r: Result<bool, GuardError>)
    modifies request
    ensures r.Ok? ==> r.value
    ensures r.Err? <==> Decision(request.authorization, verify).Err?
    ensures r.Err? ==> r.error == Decision(request.authorization, verify).error && request.csrf == old(request.csrf)
    ensures r.Ok? ==> request.csrf == Some(Decision(request.authorization, verify).value)
  {
    var token := ExtractToken(request.authorization);
    if token.None? || token.value == "" {
      return Err(NoToken);
    }
    var payload := verify(token.value);
    if payload.None? || payload.value.csrf.None? || payload.value.csrf.value == "" {
      return Err(InvalidToken);
    }
    request.csrf := payload.value.csrf;
    return Ok(true);
  }
}

=== FILE: gateway.dfy ===
/**
 * The API gateway: the HTTP endpoints of the login relay and of the
 * administrator's term settings, and the reply-topic provisioning at start.
 * Each call to a service over the broker is an `Outcome` input: the reply
 * it resolved to, or `Failed` when awaiting it threw, in which case the
 * handler throws before touching the response.
 */
module Gateway {
  import opened Wrappers
  import opened Types
  import opened Http
  import opened SchoolCookies
  import opened Provisioning

  const UserTopics: seq<string> :=
    ["user.loginForm", "user.auth", "user.login", "user.logout", "user.userInfo"]
  const ManagementTopics: seq<string> :=
    ["management.getLoginCount", "management.login", "management.logout",
     "management.validateSession", "management.getShtmYyyy", "management.setShtmYyyy"]
  const ParsingTopics: seq<string> := ["parsing.subjectInfo", "parsing.grade"]
  const BoardTopics: seq<string> := ["board.createPost", "board.likePost", "board.listPosts"]
  /** Every request topic the gateway sends on, grouped by service. */
  const AllTopics: seq<string> := UserTopics + ManagementTopics + ParsingTopics + BoardTopics

  /** The topic a service answers a request topic on. */
  function ReplyTopic(topic: string): string {
    topic + ".reply"
  }

  function ReplyTopics(topics: seq<string>): (r: seq<string>)
    ensures |r| == |topics| && forall k :: 0 <= k < |r| ==> r[k] == ReplyTopic(topics[k])
  {
    seq(|topics|, k requires 0 <= k < |topics| => ReplyTopic(topics[k]))
  }

  predicate Distinct(xs: seq<string>) {
    forall i, j :: 0 <= i < j < |xs| ==> xs[i] != xs[j]
  }

  /** Different request topics have different reply topics. */
  lemma ReplyTopicInjective(a: string, b: string)
    ensures ReplyTopic(a) == ReplyTopic(b) ==> a == b
  {
    assert ReplyTopic(a)[..|a|] == a && |ReplyTopic(a)| == |a| + 6;
    assert ReplyTopic(b)[..|b|] == b && |ReplyTopic(b)| == |b| + 6;
  }

  lemma ReplyTopicsDistinct(topics: seq<string>)
    requires Distinct(topics)
    ensures Distinct(ReplyTopics(topics))
  {
    forall i, j | 0 <= i < j < |topics| {
      ReplyTopicInjective(topics[i], topics[j]);
    }
  }

  /** The gateway's sixteen request topics are distinct, so are its reply topics. */
  lemma AllReplyTopicsDistinct()
    ensures |AllTopics| == 16
    ensures Distinct(ReplyTopics(AllTopics))
  {
    assert Distinct(AllTopics);
    ReplyTopicsDistinct(AllTopics);
  }

  /**
   * A request topic's reply topic is among those recorded at start-up
   * exactly when the create call made for it succeeded.
   */
  lemma StartupCreated(outcomes: seq<CreateOutcome>, t: string)
    requires |outcomes| == |AllTopics|
    ensures ReplyTopic(t) in CreatedTopics(ReplyTopics(AllTopics), outcomes) <==>
            exists k :: 0 <= k < |AllTopics| && AllTopics[k] == t && outcomes[k] == Created
  {
    var replies := ReplyTopics(AllTopics);
    CreatedTopicsMember(replies, outcomes, ReplyTopic(t));
    forall k | 0 <= k < |AllTopics|
      ensures replies[k] == ReplyTopic(t) <==> AllTopics[k] == t
    {
      ReplyTopicInjective(AllTopics[k], t);
    }
  }

  /** What a handler sends with a request. */
  datatype Payload =
    | NoPayload
    | AuthPayload(auth: AuthData)
    | LoginPayload(login: LoginData)
    | SessionPayload(session: SessionData)
    | Credentials(id: string, password: string)
    | SessionRef(sessionId: string)
    | TermUpdate(shtm: string, yyyy: string)
    | SubjectInfoPayload(subject: SubjectInfoRequest)
    | GradePayload(grade: GradeRequest)

  datatype Message = Message(topic: string, payload: Payload)

  /** The management service's answer to an administrator login. */
  datatype MngLoginReply = MngLoginReply(success: bool, sessionId: Option<string>, message: Option<string>)

  /** How a handler ended: with a response written, or by throwing. */
  datatype Handled = Answered | Threw

  /** The administrator session cookie, empty when absent. */
  function MngSession(req: Entries): string {
    Lookup(req, "mng_session")
  }

  class ApiGateway {
    /** Every request sent to a service, in order. */
    var sent: seq<Message>

    constructor()
      ensures sent == []
    {
      sent := [];
    }

    method Send(topic: string, payload: Payload)
      modifies this
      ensures sent == old(sent) + [Message(topic, payload)]
    {
      sent := sent + [Message(topic, payload)];
    }

    /** Creates one reply topic per request topic and returns those that were created. */
    method OnModuleInit(outcomes: seq<CreateOutcome>) returns (created: seq<string>)
      requires |outcomes| == |AllTopics|
      ensures created == CreatedTopics(ReplyTopics(AllTopics), outcomes)
    {
      created := CreateEach(ReplyTopics(AllTopics), outcomes);
    }

    /** Stage 1: keep the samlRequest in a cookie and re-expose the portal cookies. */
    method LoginForm(res: Response, reply: Outcome<LoginFormResponse>) returns (h: Handled)
      modifies this, res
      ensures sent == old(sent) + [Message("user.loginForm", NoPayload)]
      ensures reply.Failed? ==> h == Threw && unchanged(res)
      ensures reply.Replied? ==>
                && h == Answered
                && res.cookies == ApplySchoolCookies(old(res.cookies)["samlRequest" := SetTo(reply.reply.samlRequest)], reply.reply.cookies)
                && res.statusCode == old(res.statusCode) && res.body == Some(Success)
    {
      Send("user.loginForm", NoPayload);
      if reply.Failed? {
        return Threw;
      }
      var result := reply.reply;
      res.Cookie("samlRequest", result.samlRequest);
      SetSchoolCookies(res, result.cookies);
      res.Json(Success);
      h := Answered;
    }

    /**
     * Stage 2: send the credentials with the samlRequest cookie (empty when
     * absent) and the school cookies; keep the SAMLResponse in a cookie.
     */
    method Auth(req: Entries, id: string, password: string, res: Response, reply: Outcome<AuthResponse>) returns (h: Handled)
      modifies this, res
      ensures sent == old(sent) + [Message("user.auth",
                AuthPayload(AuthData(id, password, Lookup(req, "samlRequest"), ExtractSchoolCookies(req))))]
      ensures reply.Failed? ==> h == Threw && unchanged(res)
      ensures reply.Replied? ==>
                && h == Answered
                && res.cookies == ApplySchoolCookies(old(res.cookies)["samlResponse" := SetTo(reply.reply.samlResponse)], reply.reply.cookies)
                && res.statusCode == old(res.statusCode) && res.body == Some(Success)
    {
      var samlRequest := Lookup(req, "samlRequest");
      var cookies := ExtractSchoolCookies(req);
      Send("user.auth", AuthPayload(AuthData(id, password, samlRequest, cookies)));
      if reply.Failed? {
        return Threw;
      }
      var result := reply.reply;
      res.Cookie("samlResponse", result.samlResponse);
      SetSchoolCookies(res, result.cookies);
      res.Json(Success);
      h := Answered;
    }

    /**
     * Stage 3: keep the CSRF token in a cookie, re-expose the portal
     * cookies, then clear the two SAML cookies.
     */
    method Login(req: Entries, res: Response, reply: Outcome<LoginResponse>) returns (h: Handled)
      modifies this, res
      ensures sent == old(sent) + [Message("user.login",
                LoginPayload(LoginData(Lookup(req, "samlResponse"), ExtractSchoolCookies(req))))]
      ensures reply.Failed? ==> h == Threw && unchanged(res)
      ensures reply.Replied? ==>
                && h == Answered
                && res.cookies == ApplySchoolCookies(old(res.cookies)["csrf" := SetTo(reply.reply.csrf)], reply.reply.cookies)
                                    ["samlRequest" := Cleared]["samlResponse" := Cleared]
                && res.statusCode == old(res.statusCode)
                && res.body == Some(LoginSucceeded(reply.reply.accessToken))
      ensures reply.Replied? ==> res.cookies["samlRequest"] == Cleared && res.cookies["samlResponse"] == Cleared
    {
      var samlResponse := Lookup(req, "samlResponse");
      var cookies := ExtractSchoolCookies(req);
      Send("user.login", LoginPayload(LoginData(samlResponse, cookies)));
      if reply.Failed? {
        return Threw;
      }
      var result := reply.reply;
      res.Cookie("csrf", result.csrf);
      SetSchoolCookies(res, result.cookies);
      res.ClearCookie("samlRequest");
      res.ClearCookie("samlResponse");
      res.Json(LoginSucceeded(result.accessToken));
      h := Answered;
    }

    /**
     * Logout: clear every cookie the request carried, portal or not,
     * whatever the service answered.
     */
    method Logout(req: Entries, res: Response, reply: Outcome<bool>) returns (h: Handled)
      modifies this, res
      ensures sent == old(sent) + [Message("user.logout",
                SessionPayload(SessionData(Lookup(req, "csrf"), ExtractSchoolCookies(req))))]
      ensures reply.Failed? ==> h == Threw && unchanged(res)
      ensures reply.Replied? ==>
                && h == Answered
                && res.cookies == ClearAll(old(res.cookies), Names(req))
                && res.statusCode == old(res.statusCode) && res.body == Some(Success)
      ensures reply.Replied? ==> forall k :: 0 <= k < |req| ==> res.cookies[req[k].0] == Cleared
    {
      var csrf := Lookup(req, "csrf");
      var cookies := ExtractSchoolCookies(req);
      Send("user.logout", SessionPayload(SessionData(csrf, cookies)));
      if reply.Failed? {
        return Threw;
      }
      ClearCookies(res, Names(req));
      res.Json(Success);
      h := Answered;
    }

    /** User information: relayed as received; no cookie is written. */
    method GetUserInfo(req: Entries, res: Response, reply: Outcome<UserInfoResponse>) returns (h: Handled)
      modifies this, res
      ensures sent == old(sent) + [Message("user.userInfo",
                SessionPayload(SessionData(Lookup(req, "csrf"), ExtractSchoolCookies(req))))]
      ensures reply.Failed? ==> h == Threw && unchanged(res)
      ensures reply.Replied? ==>
                && h == Answered && res.cookies == old(res.cookies) && res.statusCode == old(res.statusCode)
                && res.body == Some(UserInfo(reply.reply.userInfo))
    {
      var csrf := Lookup(req, "csrf");
      var cookies := ExtractSchoolCookies(req);
      Send("user.userInfo", SessionPayload(SessionData(csrf, cookies)));
      if reply.Failed? {
        return Threw;
      }
      res.Json(UserInfo(reply.reply.userInfo));
      h := Answered;
    }

    /** Subject information: the parsing service's answer, relayed as received; no cookie is written. */
    method GetSubjectInfo(req: Entries, sujtNo: string, classNo: string, campFg: string, shtm: string, yyyy: string,
                          res: Response, reply: Outcome<SubjectInfoResponse>) returns (h: Handled)
      modifies this, res
      ensures sent == old(sent) + [Message("parsing.subjectInfo", SubjectInfoPayload(SubjectInfoRequest(
                Lookup(req, "csrf"), ExtractSchoolCookies(req), sujtNo, classNo, campFg, shtm, yyyy)))]
      ensures reply.Failed? ==> h == Threw && unchanged(res)
      ensures reply.Replied? ==>
                && h == Answered && res.cookies == old(res.cookies) && res.statusCode == old(res.statusCode)
                && res.body == Some(SubjectInfoFound(reply.reply))
    {
      var csrf := Lookup(req, "csrf");
      var cookies := ExtractSchoolCookies(req);
      Send("parsing.subjectInfo", SubjectInfoPayload(SubjectInfoRequest(csrf, cookies, sujtNo, classNo, campFg, shtm, yyyy)));
      if reply.Failed? {
        return Threw;
      }
      res.Json(SubjectInfoFound(reply.reply));
      h := Answered;
    }

    /** Grades: the parsing service's list, relayed as received; no cookie is written. */
    method GetGrades(req: Entries, campFg: string, shtmYyyy: string, shtmFg: string, stdNo: string,
                     res: Response, reply: Outcome<GradeResponse>) returns (h: Handled)
      modifies this, res
      ensures sent == old(sent) + [Message("parsing.grade", GradePayload(GradeRequest(
                Lookup(req, "csrf"), ExtractSchoolCookies(req), campFg, shtmYyyy, shtmFg, stdNo)))]
      ensures reply.Failed? ==> h == Threw && unchanged(res)
      ensures reply.Replied? ==>
                && h == Answered && res.cookies == old(res.cookies) && res.statusCode == old(res.statusCode)
                && res.body == Some(Grades(reply.reply.grades))
    {
      var csrf := Lookup(req, "csrf");
      var cookies := ExtractSchoolCookies(req);
      Send("parsing.grade", GradePayload(GradeRequest(csrf, cookies, campFg, shtmYyyy, shtmFg, stdNo)));
      if reply.Failed? {
        return Threw;
      }
      res.Json(Grades(reply.reply.grades));
      h := Answered;
    }

    /** Administrator login: the session cookie is set only for a successful reply with a non-empty session id. */
    method MngLogin(id: string, password: string, res: Response, reply: Outcome<MngLoginReply>) returns (h: Handled)
      modifies this, res
      ensures sent == old(sent) + [Message("management.login", Credentials(id, password))]
      ensures reply.Failed? ==> h == Threw && unchanged(res)
      ensures reply.Replied? ==> h == Answered
      ensures reply.Replied? && reply.reply.success && reply.reply.sessionId.Some? && reply.reply.sessionId.value != "" ==>
                && res.cookies == old(res.cookies)["mng_session" := SetTo(reply.reply.sessionId.value)]
                && res.statusCode == old(res.statusCode) && res.body == Some(Success)
      ensures reply.Replied? && !(reply.reply.success && reply.reply.sessionId.Some? && reply.reply.sessionId.value != "") ==>
                && res.cookies == old(res.cookies)
                && res.statusCode == 401 && res.body == Some(Refused(reply.reply.message))
    {
      Send("management.login", Credentials(id, password));
      if reply.Failed? {
        return Threw;
      }
      var result := reply.reply;
      if result.success && result.sessionId.Some? && result.sessionId.value != "" {
        res.Cookie("mng_session", result.sessionId.value);
        res.Json(Success);
      } else {
        res.Status(401);
        res.Json(Refused(result.message));
      }
      h := Answered;
    }

    /**
     * The session gate shared by the two term endpoints: no session cookie
     * answers 401 without sending anything; a session the management
     * service rejects answers 401. Returns whether the caller may go on.
     */
    method CheckSession(req: Entries, res: Response, validation: Outcome<bool>) returns (h: Handled, admitted: bool)
      modifies this, res
      ensures MngSession(req) == "" ==>
                && sent == old(sent) && h == Answered && !admitted
                && res.cookies == old(res.cookies) && res.statusCode == 401
                && res.body == Some(Refused(Some("Not authenticated")))
      ensures MngSession(req) != "" ==>
                sent == old(sent) + [Message("management.validateSession", SessionRef(MngSession(req)))]
      ensures MngSession(req) != "" && validation.Failed? ==> h == Threw && !admitted && unchanged(res)
      ensures MngSession(req) != "" && validation.Replied? && !validation.reply ==>
                && h == Answered && !admitted
                && res.cookies == old(res.cookies) && res.statusCode == 401
                && res.body == Some(Refused(Some("Invalid session")))
      ensures admitted <==> MngSession(req) != "" && validation.Replied? && validation.reply
      ensures admitted ==> h == Answered && unchanged(res)
    {
      var sessionId := MngSession(req);
      if sessionId == "" {
        res.Status(401);
        res.Json(Refused(Some("Not authenticated")));
        return Answered, false;
      }
      Send("management.validateSession", SessionRef(sessionId));
      if validation.Failed? {
        return Threw, false;
      }
      if !validation.reply {
        res.Status(401);
        res.Json(Refused(Some("Invalid session")));
        return Answered, false;
      }
      h, admitted := Answered, true;
    }

    /** Reads the current term, for a validated administrator session only. */
    method GetShtmYyyy(req: Entries, res: Response, validation: Outcome<bool>, term: Outcome<ShtmYyyy>) returns (h: Handled)
      modifies this, res
      ensures MngSession(req) == "" ==>
                && sent == old(sent) && h == Answered
                && res.cookies == old(res.cookies) && res.statusCode == 401
                && res.body == Some(Refused(Some("Not authenticated")))
      ensures MngSession(req) != "" && !(validation.Replied? && validation.reply) ==>
                && sent == old(sent) + [Message("management.validateSession", SessionRef(MngSession(req)))]
                && (validation.Failed? ==> h == Threw && unchanged(res))
                && (validation.Replied? ==>
                      && h == Answered && res.cookies == old(res.cookies) && res.statusCode == 401
                      && res.body == Some(Refused(Some("Invalid session"))))
      ensures MngSession(req) != "" && validation.Replied? && validation.reply ==>
                && sent == old(sent) + [Message("management.validateSession", SessionRef(MngSession(req))),
                                        Message("management.getShtmYyyy", NoPayload)]
                && (term.Failed? ==> h == Threw && unchanged(res))
                && (term.Replied? ==> h == Answered && res.cookies == old(res.cookies) && res.statusCode == old(res.statusCode)
                                      && res.body == Some(Term(term.reply.shtm, term.reply.yyyy)))
    {
      var admitted;
      h, admitted := CheckSession(req, res, validation);
      if !admitted {
        return;
      }
      Send("management.getShtmYyyy", NoPayload);
      if term.Failed? {
        return Threw;
      }
      res.Json(Term(term.reply.shtm, term.reply.yyyy));
      h := Answered;
    }

    /** Sets the current term, for a validated administrator session only; the reply is relayed as is. */
    method SetShtmYyyy(req: Entries, shtm: string, yyyy: string, res: Response,
                       validation: Outcome<bool>, result: Outcome<bool>) returns (h: Handled)
      modifies this, res
      ensures MngSession(req) == "" ==>
                && sent == old(sent) && h == Answered
                && res.cookies == old(res.cookies) && res.statusCode == 401
                && res.body == Some(Refused(Some("Not authenticated")))
      ensures MngSession(req) != "" && !(validation.Replied? && validation.reply) ==>
                && sent == old(sent) + [Message("management.validateSession", SessionRef(MngSession(req)))]
                && (validation.Failed? ==> h == Threw && unchanged(res))
                && (validation.Replied? ==>
                      && h == Answered && res.cookies == old(res.cookies) && res.statusCode == 401
                      && res.body == Some(Refused(Some("Invalid session"))))
      ensures MngSession(req) != "" && validation.Replied? && validation.reply ==>
                && sent == old(sent) + [Message("management.validateSession", SessionRef(MngSession(req))),
                                        Message("management.setShtmYyyy", TermUpdate(shtm, yyyy))]
                && (result.Failed? ==> h == Threw && unchanged(res))
                && (result.Replied? ==> h == Answered && res.cookies == old(res.cookies) && res.statusCode == old(res.statusCode)
                                        && res.body == Some(Relayed(result.reply)))
    {
      var admitted;
      h, admitted := CheckSession(req, res, validation);
      if !admitted {
        return;
      }
      Send("management.setShtmYyyy", TermUpdate(shtm, yyyy));
      if result.Failed? {
        return Threw;
      }
      res.Json(Relayed(result.reply));
      h := Answered;
    }

    /** Administrator logout: ends a non-empty session, and always clears the cookie. */
    method MngLogout(req: Entries, res: Response, reply: Outcome<bool>) returns (h: Handled)
      modifies this, res
      ensures MngSession(req) == "" ==> sent == old(sent)
      ensures MngSession(req) != "" ==> sent == old(sent) + [Message("management.logout", SessionRef(MngSession(req)))]
      ensures MngSession(req) != "" && reply.Failed? ==> h == Threw && unchanged(res)
      ensures MngSession(req) == "" || reply.Replied? ==>
                && h == Answered
                && res.cookies == old(res.cookies)["mng_session" := Cleared]
                && res.statusCode == old(res.statusCode) && res.body == Some(Success)
    {
      var sessionId := MngSession(req);
      if sessionId != "" {
        Send("management.logout", SessionRef(sessionId));
        if reply.Failed? {
          return Threw;
        }
      }
      res.ClearCookie("mng_session");
      res.Json(Success);
      h := Answered;
    }
  }
}

=== FILE: parsing_service.dfy ===
/**
 * The parsing service: a course-section lookup against the portal's
 * open-subject listing, followed by a remaining-seat lookup against the
 * portal's lesson-application listing.
 *
 * The two portal calls are oracles from the query the service sends to
 * the reply it gets back: an HTTP status and the decoded listing, whose
 * array may be missing from the JSON.
 */
module ParsingService {
  import opened Wrappers
  import opened Text
  import opened Types

  const SubjectListingUrl := "https://uportal.catholic.ac.kr/stw/scsr/scoo/findOpsbOpenSubjectInq.json"
  const SeatListingUrl := "https://uportal.catholic.ac.kr/stw/scsr/scoo/findTalaLessonApplicationOpsb.json"

  /** A POST to the portal: the URL, the CSRF header, the cookie header and the form fields in order. */
  datatype PortalQuery = PortalQuery(url: string, csrf: string, cookie: string, form: seq<(string, string)>)

  /** One row of `DS_CURR_OPSB010`; the limit may be absent (or null). */
  datatype SubjectRecord = SubjectRecord(
    sbjtNo: string, clssNo: string, sbjtKorNm: string,
    tlsnAplyRcnt: int, tlsnLmtRcnt: Option<int>, sustCd: string)

  /** One row of `DS_COUR_TALA010`. */
  datatype SeatRecord = SeatRecord(sbjtNo: string, clssNo: string, extraCnt: int)

  /** A portal reply: its status and the listing array, `None` when the JSON has no such key. */
  datatype Listing<T> = Listing(status: int, rows: Option<seq<T>>)

  datatype LookupError =
    | SubjectListingFailed  // the subject listing answered with a status outside 200..299
    | SeatListingFailed     // the seat listing answered with a status outside 200..299
    | InvalidSubject        // no row carries the requested subject code and section

  /** `list || []`: a missing array is an empty one. */
  function RowsOf<T>(rows: Option<seq<T>>): (r: seq<T>)
    ensures rows.None? ==> r == []
    ensures rows.Some? ==> r == rows.value
  {
    if rows.Some? then rows.value else []
  }

  /** The subject-listing request for a lookup: every department, the caller's campus and term. */
  function SubjectQuery(data: SubjectInfoRequest): PortalQuery {
    PortalQuery(SubjectListingUrl, data.csrf, Join(data.cookies, "; "),
      [("quatFg", "INQ"), ("posiFg", "10"), ("openYyyy", data.yyyy), ("openShtm", data.shtm),
       ("campFg", data.campFg), ("sustCd", "%"), ("corsCd", "|"), ("danFg", ""), ("pobtFgCd", "%")])
  }

  /** The seat-listing request for one department code. */
  function SeatQuery(data: SubjectInfoRequest, sustCd: string): PortalQuery {
    PortalQuery(SeatListingUrl, data.csrf, Join(data.cookies, "; "),
      [("posiFg", "10"), ("openYyyy", data.yyyy), ("openShtm", data.shtm), ("sustCd", sustCd),
       ("corsCd", ""), ("majCd", "%"), ("grade", "%")])
  }

  /** The code and section a subject row is listed under. */
  function SubjectKey(row: SubjectRecord): (string, string) {
    (row.sbjtNo, row.clssNo)
  }

  /** The code and section a seat row is listed under. */
  function SeatKey(row: SeatRecord): (string, string) {
    (row.sbjtNo, row.clssNo)
  }

  /** The position of the first row at or after `p` listed under `want`, if any. */
  function FirstIndex<T>(rows: seq<T>, key: T -> (string, string), want: (string, string), p: nat): (r: Option<nat>)
    requires p <= |rows|
    ensures r.Some? ==> p <= r.value < |rows| && key(rows[r.value]) == want
    ensures forall k :: p <= k < (if r.Some? then r.value else |rows|) ==> key(rows[k]) != want
    decreases |rows| - p
  {
    if p == |rows| then None
    else if key(rows[p]) == want then Some(p)
    else FirstIndex(rows, key, want, p + 1)
  }

  /**
   * The enrolment limit as shown: its decimal text when present and
   * non-zero, the placeholder "-" when absent or zero.
   */
  function LimitText(limit: Option<int>): (r: string)
    ensures r == "-" <==> limit.None? || limit.value == 0
    ensures limit.Some? && limit.value != 0 ==> r == NumberText(limit.value)
  {
    if limit.Some? && limit.value != 0 then NumberText(limit.value) else "-"
  }

  /** `getRemainNo`: the free seats of the section, or "-" when the listing has no such row. */
  function RemainNo(data: SubjectInfoRequest, sustCd: string, sujtNo: string, classNo: string,
                    seats: PortalQuery -> Listing<SeatRecord>): (r: Result<string, LookupError>)
    ensures var reply := seats(SeatQuery(data, sustCd));
            && (r.Err? <==> !IsOk(reply.status))
            && (r.Err? ==> r.error == SeatListingFailed)
  {
    var reply := seats(SeatQuery(data, sustCd));
    if !IsOk(reply.status) then Err(SeatListingFailed)
    else
      var rows := RowsOf(reply.rows);
      match FirstIndex(rows, SeatKey, (sujtNo, classNo), 0)
      case Some(k) => Ok(NumberText(rows[k].extraCnt))
      case None => Ok("-")
  }

  /** `getSubjectInfo`: the matched subject's details together with its free seats. */
  function SubjectInfo(data: SubjectInfoRequest, subjects: PortalQuery -> Listing<SubjectRecord>,
                       seats: PortalQuery -> Listing<SeatRecord>): (r: Result<SubjectInfoResponse, LookupError>)
    ensures r == Err(SubjectListingFailed) <==> !IsOk(subjects(SubjectQuery(data)).status)
    ensures r.Ok? ==> r.value.sujtNo == data.sujtNo && r.value.classNo == data.classNo
                      && r.value.tlsnAplyRcnt != "-"
  {
    var reply := subjects(SubjectQuery(data));
    if !IsOk(reply.status) then Err(SubjectListingFailed)
    else
      var rows := RowsOf(reply.rows);
      match FirstIndex(rows, SubjectKey, (data.sujtNo, data.classNo), 0)
      case None => Err(InvalidSubject)
      case Some(k) =>
        var row := rows[k];
        var extra := RemainNo(data, row.sustCd, data.sujtNo, data.classNo, seats);
        if extra.Err? then Err(extra.error)
        else Ok(SubjectInfoResponse(
          row.sbjtKorNm, data.sujtNo, data.classNo, NumberText(row.tlsnAplyRcnt),
          LimitText(row.tlsnLmtRcnt), row.sustCd, extra.value))
  }

  // ---------------------------------------------------------------------
  // What the lookups promise
  // ---------------------------------------------------------------------

  /**
   * The seat count is the first matching row's `extraCnt`, written out,
   * and "-" exactly when no row matches (a missing array has none).
   */
  lemma RemainNoFound(data: SubjectInfoRequest, sustCd: string, sujtNo: string, classNo: string,
                      seats: PortalQuery -> Listing<SeatRecord>)
    requires IsOk(seats(SeatQuery(data, sustCd)).status)
    ensures var rows := RowsOf(seats(SeatQuery(data, sustCd)).rows);
            var r := RemainNo(data, sustCd, sujtNo, classNo, seats);
            && r.Ok?
            && (r.value == "-" <==> forall k :: 0 <= k < |rows| ==> SeatKey(rows[k]) != (sujtNo, classNo))
            && (forall k :: 0 <= k < |rows| && SeatKey(rows[k]) == (sujtNo, classNo) &&
                  (forall j :: 0 <= j < k ==> SeatKey(rows[j]) != (sujtNo, classNo))
                  ==> r.value == NumberText(rows[k].extraCnt))
  {
    var rows := RowsOf(seats(SeatQuery(data, sustCd)).rows);
    var f := FirstIndex(rows, SeatKey, (sujtNo, classNo), 0);
    if f.Some? {
      forall k | 0 <= k < |rows| && SeatKey(rows[k]) == (sujtNo, classNo) &&
                 (forall j :: 0 <= j < k ==> SeatKey(rows[j]) != (sujtNo, classNo))
        ensures k == f.value
      {
      }
    }
  }

  /** With an ok listing, the lookup reports an invalid code or section exactly when no row matches. */
  lemma SubjectInfoNoMatch(data: SubjectInfoRequest, subjects: PortalQuery -> Listing<SubjectRecord>,
                           seats: PortalQuery -> Listing<SeatRecord>)
    requires IsOk(subjects(SubjectQuery(data)).status)
    ensures var rows := RowsOf(subjects(SubjectQuery(data)).rows);
            SubjectInfo(data, subjects, seats) == Err(InvalidSubject) <==>
              forall k :: 0 <= k < |rows| ==> SubjectKey(rows[k]) != (data.sujtNo, data.classNo)
  {
    var rows := RowsOf(subjects(SubjectQuery(data)).rows);
    var f := FirstIndex(rows, SubjectKey, (data.sujtNo, data.classNo), 0);
    if f.Some? {
      var extra := RemainNo(data, rows[f.value].sustCd, data.sujtNo, data.classNo, seats);
      assert extra.Err? ==> extra.error == SeatListingFailed;
    }
  }

  /**
   * For the first matching row `k`: the seat lookup is keyed by that
   * row's department; a failing seat listing fails the whole lookup;
   * otherwise the answer echoes the requested code and section, takes the
   * name and department from the row, writes out the application count,
   * shows the limit or "-", and carries the seat count.
   */
  lemma SubjectInfoMatch(data: SubjectInfoRequest, subjects: PortalQuery -> Listing<SubjectRecord>,
                         seats: PortalQuery -> Listing<SeatRecord>, k: nat)
    requires IsOk(subjects(SubjectQuery(data)).status)
    requires var rows := RowsOf(subjects(SubjectQuery(data)).rows);
             && k < |rows| && SubjectKey(rows[k]) == (data.sujtNo, data.classNo)
             && forall j :: 0 <= j < k ==> SubjectKey(rows[j]) != (data.sujtNo, data.classNo)
    ensures var row := RowsOf(subjects(SubjectQuery(data)).rows)[k];
            var extra := RemainNo(data, row.sustCd, data.sujtNo, data.classNo, seats);
            var r := SubjectInfo(data, subjects, seats);
            && (extra.Err? ==> r == Err(SeatListingFailed))
            && (extra.Ok? ==> r.Ok? && r.value == SubjectInfoResponse(
                  row.sbjtKorNm, data.sujtNo, data.classNo, NumberText(row.tlsnAplyRcnt),
                  LimitText(row.tlsnLmtRcnt), row.sustCd, extra.value))
  {
    var rows := RowsOf(subjects(SubjectQuery(data)).rows);
    var f := FirstIndex(rows, SubjectKey, (data.sujtNo, data.classNo), 0);
    assert f.Some?;
    assert f.value == k;
  }

  // ---------------------------------------------------------------------
  // The service's loops
  // ---------------------------------------------------------------------

  /** `getRemainNo`: a linear search for the section, stopping at the first match. */
  method GetRemainNo(data: SubjectInfoRequest, sustCd: string, sujtNo: string, classNo: string,
                     seats: PortalQuery -> Listing<SeatRecord>) returns (r: Result<string, LookupError>)
    ensures r == RemainNo(data, sustCd, sujtNo, classNo, seats)
  {
    var reply := seats(SeatQuery(data, sustCd));
    if !IsOk(reply.status) {
      return Err(SeatListingFailed);
    }
    var rows := RowsOf(reply.rows);
    var i := 0;
    while i < |rows|
      invariant 0 <= i <= |rows|
      invariant FirstIndex(rows, SeatKey, (sujtNo, classNo), 0) == FirstIndex(rows, SeatKey, (sujtNo, classNo), i)
    {
      if rows[i].sbjtNo == sujtNo && rows[i].clssNo == classNo {
        return Ok(NumberText(rows[i].extraCnt));
      }
      i := i + 1;
    }
    return Ok("-");
  }

  /** `getSubjectInfo`: a linear search for the subject, then the seat lookup for its department. */
  method GetSubjectInfo(data: SubjectInfoRequest, subjects: PortalQuery -> Listing<SubjectRecord>,
                        seats: PortalQuery -> Listing<SeatRecord>) returns (r: Result<SubjectInfoResponse, LookupError>)
    ensures r == SubjectInfo(data, subjects, seats)
  {
    var reply := subjects(SubjectQuery(data));
    if !IsOk(reply.status) {
      return Err(SubjectListingFailed);
    }
    var rows := RowsOf(reply.rows);
    var i := 0;
    while i < |rows|
      invariant 0 <= i <= |rows|
      invariant FirstIndex(rows, SubjectKey, (data.sujtNo, data.classNo), 0) == FirstIndex(rows, SubjectKey, (data.sujtNo, data.classNo), i)
    {
      var row := rows[i];
      if row.sbjtNo == data.sujtNo && row.clssNo == data.classNo {
        var extra := GetRemainNo(data, row.sustCd, data.sujtNo, data.classNo, seats);
        if extra.Err? {
          return Err(extra.error);
        }
        return Ok(SubjectInfoResponse(
          row.sbjtKorNm, data.sujtNo, data.classNo, NumberText(row.tlsnAplyRcnt),
          LimitText(row.tlsnLmtRcnt), row.sustCd, extra.value));
      }
      i := i + 1;
    }
    return Err(InvalidSubject);
  }
}

=== FILE: provisioning.dfy ===
/**
 * Topic provisioning at start-up, shared by the gateway (its reply topics)
 * and the user service (its request topics). Each topic is created with
 * its own admin call; the call's outcome is an input, in call order.
 */
module Provisioning {

  /** `createTopics` resolving true, resolving false (already there), or throwing. */
  datatype CreateOutcome = Created | AlreadyExists | CreateFailed

  /** The topics whose creation reported success, in their original order. */
  function CreatedTopics(topics: seq<string>, outcomes: seq<CreateOutcome>): (r: seq<string>)
    requires |outcomes| == |topics|
    ensures |r| <= |topics|
    decreases |topics|
  {
    if topics == [] then []
    else (if outcomes[0] == Created then [topics[0]] else []) + CreatedTopics(topics[1..], outcomes[1..])
  }

  /**
   * A topic is recorded exactly when some call for it reported success; an
   * earlier failure or "already exists" does not stop the later calls.
   */
  lemma {:induction false} CreatedTopicsMember(topics: seq<string>, outcomes: seq<CreateOutcome>, t: string)
    requires |outcomes| == |topics|
    ensures t in CreatedTopics(topics, outcomes) <==>
            exists k :: 0 <= k < |topics| && topics[k] == t && outcomes[k] == Created
    decreases |topics|
  {
    if topics != [] {
      CreatedTopicsMember(topics[1..], outcomes[1..], t);
      if exists k :: 0 <= k < |topics[1..]| && topics[1..][k] == t && outcomes[1..][k] == Created {
        var k :| 0 <= k < |topics[1..]| && topics[1..][k] == t && outcomes[1..][k] == Created;
        assert topics[k + 1] == t && outcomes[k + 1] == Created;
      }
      if exists k :: 0 <= k < |topics| && topics[k] == t && outcomes[k] == Created {
        var k :| 0 <= k < |topics| && topics[k] == t && outcomes[k] == Created;
        if k > 0 {
          assert topics[1..][k - 1] == t && outcomes[1..][k - 1] == Created;
        }
      }
    }
  }

  /** Provisioning a concatenated list records the first part's topics, then the second's. */
  lemma {:induction false} CreatedTopicsAppend(xs: seq<string>, os: seq<CreateOutcome>, ys: seq<string>, ps: seq<CreateOutcome>)
    requires |os| == |xs| && |ps| == |ys|
    ensures CreatedTopics(xs + ys, os + ps) == CreatedTopics(xs, os) + CreatedTopics(ys, ps)
    decreases |xs|
  {
    if xs == [] {
      assert xs + ys == ys && os + ps == ps;
    } else {
      assert (xs + ys)[1..] == xs[1..] + ys && (os + ps)[1..] == os[1..] + ps;
      CreatedTopicsAppend(xs[1..], os[1..], ys, ps);
    }
  }

  /** When every call succeeds, every topic is recorded, in order. */
  lemma {:induction false} AllCreated(topics: seq<string>, outcomes: seq<CreateOutcome>)
    requires |outcomes| == |topics|
    requires forall k :: 0 <= k < |outcomes| ==> outcomes[k] == Created
    ensures CreatedTopics(topics, outcomes) == topics
    decreases |topics|
  {
    if topics != [] {
      AllCreated(topics[1..], outcomes[1..]);
    }
  }

  /** The provisioning loop: one admin call per topic, recording the created ones. */
  method CreateEach(topics: seq<string>, outcomes: seq<CreateOutcome>) returns (created: seq<string>)
    requires |outcomes| == |topics|
    ensures created == CreatedTopics(topics, outcomes)
  {
    created := [];
    var i := 0;
    while i < |topics|
      invariant 0 <= i <= |topics|
      invariant created + CreatedTopics(topics[i..], outcomes[i..]) == CreatedTopics(topics, outcomes)
    {
      assert topics[i..][1..] == topics[i + 1..] && outcomes[i..][1..] == outcomes[i + 1..];
      match outcomes[i] {
        case Created =>
          created := created + [topics[i]];
        case AlreadyExists =>
        case CreateFailed =>
      }
      i := i + 1;
    }
    assert topics[i..] == [];
  }
}

=== FILE: response.dfy ===
/**
 * The gateway's HTTP response object, reduced to what the handlers write:
 * the cookie jar (`res.cookie`, `res.clearCookie`), the status code
 * (`res.status`) and the JSON body (`res.json`).
 */
module Http {
  import opened Wrappers
  import opened Types

  /** What the response says about one cookie name: set it to a value, or clear it. */
  datatype CookieWrite = SetTo(value: string) | Cleared

  /** The JSON bodies the gateway's handlers send. */
  datatype Body =
    | Success                                      // { success: true }
    | LoginSucceeded(accessToken: Option<string>)  // { success: true, accessToken }
    | UserInfo(userInfo: TrinityInfo)              // { success: true, userInfo }
    | Refused(message: Option<string>)             // { success: false, message }
    | Term(shtm: Option<string>, yyyy: Option<string>)  // { success: true, shtm, yyyy }
    | Relayed(success: bool)                       // the management reply, as received
    | SubjectInfoFound(subjectInfo: SubjectInfoResponse)  // { success: true, subjectInfo }
    | Grades(grades: seq<CurrentGradeInfo>)        // { success: true, grades }

  class Response {
    /** The last write for each cookie name; a later write replaces an earlier one. */
    var cookies: map<string, CookieWrite>
    var statusCode: int
    var body: Option<Body>

    constructor()
      ensures cookies == map[] && statusCode == 200 && body == None
    {
      cookies := map[];
      statusCode := 200;
      body := None;
    }

    method Cookie(name: string, value: string)
      modifies this
      ensures cookies == old(cookies)[name := SetTo(value)]
      ensures statusCode == old(statusCode) && body == old(body)
    {
      cookies := cookies[name := SetTo(value)];
    }

    method ClearCookie(name: string)
      modifies this
      ensures cookies == old(cookies)[name := Cleared]
      ensures statusCode == old(statusCode) && body == old(body)
    {
      cookies := cookies[name := Cleared];
    }

    method Status(code: int)
      modifies this
      ensures statusCode == code
      ensures cookies == old(cookies) && body == old(body)
    {
      statusCode := code;
    }

    method Json(b: Body)
      modifies this
      ensures body == Some(b)
      ensures cookies == old(cookies) && statusCode == old(statusCode)
    {
      body := Some(b);
    }
  }
}

=== FILE: school_cookies.dfy ===
/**
 * How the gateway relays portal cookies through the browser: portal
 * `Set-Cookie` strings become cookies on the gateway's own response, and
 * the browser's cookies come back as `name=value` strings for the services.
 */
module SchoolCookies {
  import opened Wrappers
  import opened Text
  import opened Http
  import UserService

  /**
   * The request's parsed cookies, in `Object.entries` order. The parsed
   * cookies form an object, so a name occurs at most once there; the
   * sequence type allows repeats, and for those `Lookup` takes the first,
   * a choice no real request can observe.
   */
  type Entries = seq<(string, string)>

  /** `reqCookies[name] ?? ''`: the value of the first entry with that name, or empty. */
  function Lookup(entries: Entries, name: string): (r: string)
    ensures (forall k :: 0 <= k < |entries| ==> entries[k].0 != name) ==> r == ""
    ensures forall k ::
              (0 <= k < |entries| && entries[k].0 == name && forall j :: 0 <= j < k ==> entries[j].0 != name)
              ==> r == entries[k].1
    decreases |entries|
  {
    if entries == [] then ""
    else if entries[0].0 == name then entries[0].1
    else
      var r := Lookup(entries[1..], name);
      assert forall k :: 1 <= k < |entries| ==> entries[k] == entries[1..][k - 1];
      r
  }

  /** `Object.keys(reqCookies)`. */
  function Names(entries: Entries): (r: seq<string>)
    ensures |r| == |entries| && forall k :: 0 <= k < |r| ==> r[k] == entries[k].0
  {
    seq(|entries|, k requires 0 <= k < |entries| => entries[k].0)
  }

  /** The relay's own cookies, which are not the portal's. */
  predicate IsSchoolCookieName(name: string) {
    name != "samlRequest" && name != "samlResponse" && name != "csrf"
  }

  function Render(entry: (string, string)): string {
    entry.0 + "=" + entry.1
  }

  /**
   * The school cookies of a request: every entry except the relay's own,
   * rendered `name=value`, in order.
   */
  function ExtractSchoolCookies(entries: Entries): (r: seq<string>)
    ensures |r| <= |entries|
    ensures forall j :: 0 <= j < |entries| && IsSchoolCookieName(entries[j].0) ==> Render(entries[j]) in r
    decreases |entries|
  {
    if entries == [] then []
    else
      var head := if IsSchoolCookieName(entries[0].0) then [Render(entries[0])] else [];
      var rest := ExtractSchoolCookies(entries[1..]);
      assert forall j :: 1 <= j < |entries| ==> entries[j] == entries[1..][j - 1];
      head + rest
  }

  /** Every relayed cookie is the rendering of a school entry of the request. */
  lemma {:induction false} ExtractSchoolCookiesOnlySchool(entries: Entries, k: nat)
    requires k < |ExtractSchoolCookies(entries)|
    ensures exists j :: 0 <= j < |entries| && IsSchoolCookieName(entries[j].0)
                        && ExtractSchoolCookies(entries)[k] == Render(entries[j])
    decreases |entries|
  {
    var head := if IsSchoolCookieName(entries[0].0) then [Render(entries[0])] else [];
    if k < |head| {
      assert ExtractSchoolCookies(entries)[k] == Render(entries[0]);
    } else {
      ExtractSchoolCookiesOnlySchool(entries[1..], k - |head|);
      var j :| 0 <= j < |entries[1..]| && IsSchoolCookieName(entries[1..][j].0)
               && ExtractSchoolCookies(entries[1..])[k - |head|] == Render(entries[1..][j]);
      assert entries[1..][j] == entries[j + 1];
    }
  }

  /** Extraction works entry by entry: it keeps the order of the request's entries. */
  lemma {:induction false} ExtractSchoolCookiesAppend(xs: Entries, ys: Entries)
    ensures ExtractSchoolCookies(xs + ys) == ExtractSchoolCookies(xs) + ExtractSchoolCookies(ys)
    decreases |xs|
  {
    if xs == [] {
      assert xs + ys == ys;
    } else {
      assert (xs + ys)[1..] == xs[1..] + ys;
      ExtractSchoolCookiesAppend(xs[1..], ys);
    }
  }

  /** A request carrying only school cookies has all of them relayed, each rendered. */
  lemma {:induction false} ExtractSchoolCookiesKeepsAll(entries: Entries)
    requires forall k :: 0 <= k < |entries| ==> IsSchoolCookieName(entries[k].0)
    ensures |ExtractSchoolCookies(entries)| == |entries|
    ensures forall k :: 0 <= k < |entries| ==> ExtractSchoolCookies(entries)[k] == Render(entries[k])
    decreases |entries|
  {
    if entries != [] {
      ExtractSchoolCookiesKeepsAll(entries[1..]);
      assert forall k :: 1 <= k < |entries| ==> entries[k] == entries[1..][k - 1];
    }
  }

  // ---------------------------------------------------------------------
  // Re-exposing a portal Set-Cookie string
  // ---------------------------------------------------------------------

  /**
   * The cookie the gateway sets for one portal `Set-Cookie` string: of the
   * text before the first `;`, the piece before the first `=` is the name
   * and the piece between the first and second `=` the value; both must be
   * non-empty as read, and are stored trimmed.
   */
  function SchoolCookie(setCookie: string): (r: Option<(string, string)>)
    ensures r.Some? ==> Trimmed(r.value.0) && Trimmed(r.value.1)
  {
    var pair := Split(setCookie, ';')[0];
    var pieces := Split(pair, '=');
    var name := pieces[0];
    var value := if |pieces| >= 2 then pieces[1] else "";
    if name != "" && value != "" then Some((Trim(name), Trim(value))) else None
  }

  /** The text `name=value` followed by nothing or by another `=` splits into name and value first. */
  lemma PiecesOf(name: string, value: string, tail: string)
    requires '=' !in name && '=' !in value
    requires tail == "" || tail[0] == '='
    ensures var pieces := Split(name + "=" + value + tail, '=');
            |pieces| >= 2 && pieces[0] == name && pieces[1] == value
  {
    assert name + "=" + value + tail == name + ['='] + (value + tail);
    SplitHead(name, '=', value + tail);
    SplitFirstPiece(value, '=', tail);
  }

  /**
   * `s` is a non-empty name, `=`, a non-empty value, and then nothing or
   * text starting with `;` or `=`.
   */
  predicate CookieShape(s: string, name: string, value: string, rest: string) {
    && s == name + "=" + value + rest
    && name != "" && value != ""
    && ';' !in name && '=' !in name && ';' !in value && '=' !in value
    && (rest == "" || rest[0] == ';' || rest[0] == '=')
  }

  /** Every `Set-Cookie` string of that shape yields its name and value, trimmed. */
  lemma SchoolCookieAccepts(s: string, name: string, value: string, rest: string)
    requires CookieShape(s, name, value, rest)
    ensures SchoolCookie(s) == Some((Trim(name), Trim(value)))
  {
    var pair := Split(s, ';')[0];
    SplitFirst(s, ';');
    PairOfShape(s, pair, name, value, rest);
    PiecesOf(name, value, pair[|name| + 1 + |value|..]);
  }

  /** The text before the first `;` of such a string is `name=value`, then nothing or `=`. */
  lemma PairOfShape(s: string, pair: string, name: string, value: string, rest: string)
    requires CookieShape(s, name, value, rest)
    requires pair <= s && ';' !in pair && (|pair| < |s| ==> s[|pair|] == ';')
    ensures var n := |name| + 1 + |value|;
            && n <= |pair| && pair == name + "=" + value + pair[n..]
            && (pair[n..] == "" || pair[n..][0] == '=')
  {
    var n := |name| + 1 + |value|;
    assert s[..n] == name + "=" + value;
    assert forall k :: 0 <= k < n ==> s[k] != ';';
    assert n <= |pair|;
    assert pair[..n] == s[..n];
    assert pair == pair[..n] + pair[n..];
    assert pair[n..] == "" || pair[n..][0] == '=' by {
      assert pair[n..] == "" || pair[n] == s[n] == rest[0];
      assert pair[n..] == "" || pair[n] in pair;
    }
  }

  /** The text split on `=` into at least two pieces starts `first=second` and goes on with `=`, if at all. */
  lemma FirstTwoPieces(pair: string)
    requires |Split(pair, '=')| >= 2
    ensures var pieces := Split(pair, '=');
            var n := |pieces[0]| + 1 + |pieces[1]|;
            && n <= |pair| && pair[..n] == pieces[0] + "=" + pieces[1]
            && (n < |pair| ==> pair[n] == '=')
  {
    var i, j := SplitSecond(pair, '=');
    Glue(pair, i, j);
  }

  /** The text up to the end of the second `=`-separated piece, read off by positions. */
  lemma Glue(pair: string, i: nat, j: nat)
    requires i < |pair| && pair[i] == '=' && j <= |pair| - i - 1
    ensures pair[..i + 1 + j] == pair[..i] + "=" + pair[i + 1..][..j]
    ensures i + 1 + j < |pair| ==> pair[i + 1 + j] == pair[i + 1..][j]
  {
  }

  /** A `name=value` prefix of the text before the first `;`, followed by `=` or by the end of that text. */
  lemma ShapeOfPair(s: string, pair: string, name: string, value: string)
    requires pair <= s && ';' !in pair && (|pair| < |s| ==> s[|pair|] == ';')
    requires |name| + 1 + |value| <= |pair| && pair[..|name| + 1 + |value|] == name + "=" + value
    requires |name| + 1 + |value| < |pair| ==> pair[|name| + 1 + |value|] == '='
    requires name != "" && value != "" && '=' !in name && '=' !in value
    ensures CookieShape(s, name, value, s[|name| + 1 + |value|..])
  {
    var n := |name| + 1 + |value|;
    assert s[..n] == pair[..n];
    assert ';' !in name + "=" + value;
    assert s == s[..n] + s[n..];
  }

  /** The name and value pieces of an accepted string, and what follows them. */
  lemma ShapePieces(s: string) returns (name: string, value: string, rest: string)
    requires var pieces := Split(Split(s, ';')[0], '='); |pieces| >= 2 && pieces[0] != "" && pieces[1] != ""
    ensures CookieShape(s, name, value, rest)
    ensures var pieces := Split(Split(s, ';')[0], '='); name == pieces[0] && value == pieces[1]
  {
    var pair := Split(s, ';')[0];
    SplitFirst(s, ';');
    var pieces := Split(pair, '=');
    name, value := pieces[0], pieces[1];
    FirstTwoPieces(pair);
    ShapeOfPair(s, pair, name, value);
    rest := s[|name| + 1 + |value|..];
  }

  /**
   * Conversely, a cookie is set only for a string of that shape, and its
   * name and value are the trimmed pieces.
   */
  lemma SchoolCookieShape(s: string)
    requires SchoolCookie(s).Some?
    ensures exists name: string, value: string, rest: string ::
              CookieShape(s, name, value, rest) && SchoolCookie(s).value == (Trim(name), Trim(value))
  {
    var name, value, rest := ShapePieces(s);
    assert SchoolCookie(s).value == (Trim(name), Trim(value));
  }

  /**
   * A well-formed portal cookie survives the trip through the browser:
   * when its name and value are non-empty, already trimmed and free of `;`
   * and `=`, the gateway sets it under that name and value, and when the
   * browser sends it back it is relayed as the very `name=value` text the
   * user service kept from the portal's header. A cookie named like one
   * of the relay's own (`csrf`, `samlRequest`, `samlResponse`) is set but
   * never relayed. Other cookies do not survive unchanged: the gateway
   * trims name and value and cuts the value at its first `=`
   * (`SchoolCookieShape`).
   */
  lemma RelayRoundTrip(name: string, value: string, attributes: string)
    requires name != "" && value != "" && Trimmed(name) && Trimmed(value)
    requires ';' !in name && '=' !in name && ';' !in value && '=' !in value
    requires attributes == "" || attributes[0] == ';'
    ensures SchoolCookie(name + "=" + value + attributes) == Some((name, value))
    ensures UserService.ParseCookies([name + "=" + value + attributes]) == [Render((name, value))]
    ensures IsSchoolCookieName(name) ==>
              ExtractSchoolCookies([(name, value)]) == UserService.ParseCookies([name + "=" + value + attributes])
    ensures !IsSchoolCookieName(name) ==> ExtractSchoolCookies([(name, value)]) == []
  {
    RelaySet(name, value, attributes);
    UserService.ParseCookiesOne(name + "=" + value, attributes);
    ExtractSchoolCookiesOne(name, value);
  }

  /** The gateway re-sets a well-formed portal cookie under its own name and value. */
  lemma RelaySet(name: string, value: string, attributes: string)
    requires name != "" && value != "" && Trimmed(name) && Trimmed(value)
    requires ';' !in name && '=' !in name && ';' !in value && '=' !in value
    requires attributes == "" || attributes[0] == ';'
    ensures SchoolCookie(name + "=" + value + attributes) == Some((name, value))
  {
    assert CookieShape(name + "=" + value + attributes, name, value, attributes);
    SchoolCookieAccepts(name + "=" + value + attributes, name, value, attributes);
    TrimKeeps(name);
    TrimKeeps(value);
  }

  /** A request carrying one cookie relays it exactly when it is not one of the relay's own. */
  lemma ExtractSchoolCookiesOne(name: string, value: string)
    ensures ExtractSchoolCookies([(name, value)]) == if IsSchoolCookieName(name) then [Render((name, value))] else []
  {
    assert [(name, value)][1..] == [];
  }

  // ---------------------------------------------------------------------
  // Writing into the response's cookie jar
  // ---------------------------------------------------------------------

  /** What each portal string asks the gateway to set, if anything. */
  function Accepted(cookies: seq<string>): (r: seq<Option<(string, string)>>)
    ensures |r| == |cookies| && forall k :: 0 <= k < |r| ==> r[k] == SchoolCookie(cookies[k])
  {
    seq(|cookies|, k requires 0 <= k < |cookies| => SchoolCookie(cookies[k]))
  }

  /** The jar after one requested write: set the cookie, or leave the jar as it is. */
  function Write(jar: map<string, CookieWrite>, d: Option<(string, string)>): map<string, CookieWrite> {
    if d.Some? then jar[d.value.0 := SetTo(d.value.1)] else jar
  }

  /** The jar after each requested write in turn. */
  function Writes(jar: map<string, CookieWrite>, ds: seq<Option<(string, string)>>): map<string, CookieWrite>
    decreases |ds|
  {
    if ds == [] then jar
    else Writes(Write(jar, ds[0]), ds[1..])
  }

  /**
   * `setSchoolCookies`' `forEach`: the jar after one `res.cookie(name,
   * value)` for each portal string that yields a pair, in order.
   */
  function ApplySchoolCookies(jar: map<string, CookieWrite>, cookies: seq<string>): map<string, CookieWrite> {
    Writes(jar, Accepted(cookies))
  }

  lemma {:induction false} WritesKeeps(jar: map<string, CookieWrite>, ds: seq<Option<(string, string)>>)
    ensures jar.Keys <= Writes(jar, ds).Keys
    ensures forall n :: n in Writes(jar, ds) ==> Writes(jar, ds)[n].SetTo? || (n in jar && Writes(jar, ds)[n] == jar[n])
    decreases |ds|
  {
    if ds != [] {
      WritesKeeps(Write(jar, ds[0]), ds[1..]);
    }
  }

  /**
   * Setting the portal cookies removes nothing from the jar, and every entry
   * afterwards is either a value set here or what the jar held.
   */
  lemma ApplySchoolCookiesKeeps(jar: map<string, CookieWrite>, cookies: seq<string>)
    ensures jar.Keys <= ApplySchoolCookies(jar, cookies).Keys
    ensures forall n :: n in ApplySchoolCookies(jar, cookies) ==>
              ApplySchoolCookies(jar, cookies)[n].SetTo? || (n in jar && ApplySchoolCookies(jar, cookies)[n] == jar[n])
  {
    WritesKeeps(jar, Accepted(cookies));
  }

  lemma {:induction false} WritesAppend(jar: map<string, CookieWrite>, xs: seq<Option<(string, string)>>, ys: seq<Option<(string, string)>>)
    ensures Writes(jar, xs + ys) == Writes(Writes(jar, xs), ys)
    decreases |xs|
  {
    if xs == [] {
      assert xs + ys == ys;
    } else {
      assert (xs + ys)[1..] == xs[1..] + ys;
      WritesAppend(Write(jar, xs[0]), xs[1..], ys);
    }
  }

  lemma {:induction false} WritesUntouched(jar: map<string, CookieWrite>, ds: seq<Option<(string, string)>>, name: string)
    requires forall k :: 0 <= k < |ds| ==> ds[k].None? || ds[k].value.0 != name
    ensures name in Writes(jar, ds) <==> name in jar
    ensures name in jar ==> Writes(jar, ds)[name] == jar[name]
    decreases |ds|
  {
    if ds != [] {
      assert ds[0].None? || ds[0].value.0 != name;
      assert forall k :: 0 <= k < |ds[1..]| ==> ds[1..][k] == ds[k + 1];
      WritesUntouched(Write(jar, ds[0]), ds[1..], name);
    }
  }

  lemma WritesLastWins(jar: map<string, CookieWrite>, ds: seq<Option<(string, string)>>, k: nat)
    requires k < |ds| && ds[k].Some?
    requires forall j :: k < j < |ds| ==> ds[j].None? || ds[j].value.0 != ds[k].value.0
    ensures ds[k].value.0 in Writes(jar, ds) && Writes(jar, ds)[ds[k].value.0] == SetTo(ds[k].value.1)
  {
    var nv := ds[k].value;
    var pre, post := ds[..k], ds[k + 1..];
    assert ds == pre + ([ds[k]] + post);
    WritesAppend(jar, pre, [ds[k]] + post);
    var before := Writes(jar, pre);
    assert ([ds[k]] + post)[1..] == post;
    var mid := before[nv.0 := SetTo(nv.1)];
    assert Writes(before, [ds[k]] + post) == Writes(mid, post);
    forall j | 0 <= j < |post|
      ensures post[j].None? || post[j].value.0 != nv.0
    {
      assert post[j] == ds[k + 1 + j];
    }
    WritesUntouched(mid, post, nv.0);
  }

  lemma ApplySchoolCookiesAppend(jar: map<string, CookieWrite>, xs: seq<string>, ys: seq<string>)
    ensures ApplySchoolCookies(jar, xs + ys) == ApplySchoolCookies(ApplySchoolCookies(jar, xs), ys)
  {
    assert Accepted(xs + ys) == Accepted(xs) + Accepted(ys);
    WritesAppend(jar, Accepted(xs), Accepted(ys));
  }

  /** A name no accepted portal cookie carries keeps whatever the jar said about it. */
  lemma ApplySchoolCookiesUntouched(jar: map<string, CookieWrite>, cookies: seq<string>, name: string)
    requires forall k :: 0 <= k < |cookies| ==> SchoolCookie(cookies[k]).None? || SchoolCookie(cookies[k]).value.0 != name
    ensures name in ApplySchoolCookies(jar, cookies) <==> name in jar
    ensures name in jar ==> ApplySchoolCookies(jar, cookies)[name] == jar[name]
  {
    WritesUntouched(jar, Accepted(cookies), name);
  }

  /** For a name several portal cookies carry, the last one's value wins. */
  lemma ApplySchoolCookiesLastWins(jar: map<string, CookieWrite>, cookies: seq<string>, k: nat)
    requires k < |cookies| && SchoolCookie(cookies[k]).Some?
    requires forall j :: k < j < |cookies| ==>
               SchoolCookie(cookies[j]).None? || SchoolCookie(cookies[j]).value.0 != SchoolCookie(cookies[k]).value.0
    ensures var nv := SchoolCookie(cookies[k]).value;
            nv.0 in ApplySchoolCookies(jar, cookies) && ApplySchoolCookies(jar, cookies)[nv.0] == SetTo(nv.1)
  {
    WritesLastWins(jar, Accepted(cookies), k);
  }

  /** The writes of one more entry are the earlier writes, then that one. */
  lemma WritesSnoc(jar: map<string, CookieWrite>, ds: seq<Option<(string, string)>>, i: nat)
    requires i < |ds|
    ensures Writes(jar, ds[..i + 1]) == Write(Writes(jar, ds[..i]), ds[i])
  {
    assert ds[..i + 1] == ds[..i] + [ds[i]];
    WritesAppend(jar, ds[..i], [ds[i]]);
    assert [ds[i]][1..] == [];
  }

  /** `setSchoolCookies`: one `res.cookie` per accepted portal cookie, in order. */
  method SetSchoolCookies(res: Response, cookies: seq<string>)
    modifies res
    ensures res.cookies == ApplySchoolCookies(old(res.cookies), cookies)
    ensures res.statusCode == old(res.statusCode) && res.body == old(res.body)
  {
    ghost var ds := Accepted(cookies);
    var i := 0;
    while i < |cookies|
      invariant 0 <= i <= |cookies|
      invariant res.cookies == Writes(old(res.cookies), ds[..i])
      invariant res.statusCode == old(res.statusCode) && res.body == old(res.body)
    {
      WritesSnoc(old(res.cookies), ds, i);
      var d := SchoolCookie(cookies[i]);
      assert d == ds[i];
      if d.Some? {
        res.Cookie(d.value.0, d.value.1);
      }
      i := i + 1;
    }
    assert ds[..i] == ds;
  }

  // ---------------------------------------------------------------------
  // Clearing every cookie of the request
  // ---------------------------------------------------------------------

  /** The jar after clearing each name in turn. */
  function ClearAll(jar: map<string, CookieWrite>, names: seq<string>): (r: map<string, CookieWrite>)
    ensures forall k :: 0 <= k < |names| ==> names[k] in r && r[names[k]] == Cleared
    ensures forall n :: n !in names ==> (n in r <==> n in jar)
    ensures forall n :: n !in names && n in jar ==> r[n] == jar[n]
    decreases |names|
  {
    if names == [] then jar
    else
      var r := ClearAll(jar[names[0] := Cleared], names[1..]);
      assert forall k :: 1 <= k < |names| ==> names[k] == names[1..][k - 1];
      r
  }

  /** The logout loop: `res.clearCookie` for every name on the request. */
  method ClearCookies(res: Response, names: seq<string>)
    modifies res
    ensures res.cookies == ClearAll(old(res.cookies), names)
    ensures res.statusCode == old(res.statusCode) && res.body == old(res.body)
  {
    var i := 0;
    while i < |names|
      invariant 0 <= i <= |names|
      invariant ClearAll(res.cookies, names[i..]) == ClearAll(old(res.cookies), names)
      invariant res.statusCode == old(res.statusCode) && res.body == old(res.body)
    {
      assert names[i..][1..] == names[i + 1..];
      res.ClearCookie(names[i]);
      i := i + 1;
    }
    assert names[i..] == [];
  }
}

=== FILE: seqs.dfy ===
/** Order-preserving filtering of sequences (JavaScript's `Array.prototype.filter`). */
module Seqs {

  /** The elements of `xs` that satisfy `p`, in their original order. */
  function Filter<T>(xs: seq<T>, p: T -> bool): (r: seq<T>)
    ensures |r| <= |xs|
    ensures forall k :: 0 <= k < |r| ==> r[k] in xs && p(r[k])
    ensures forall k :: 0 <= k < |xs| && p(xs[k]) ==> xs[k] in r
    decreases |xs|
  {
    if xs == [] then []
    else if p(xs[0]) then [xs[0]] + Filter(xs[1..], p)
    else Filter(xs[1..], p)
  }

  /** Filtering distributes over concatenation, so it never reorders. */
  lemma {:induction false} FilterAppend<T>(xs: seq<T>, ys: seq<T>, p: T -> bool)
    ensures Filter(xs + ys, p) == Filter(xs, p) + Filter(ys, p)
    decreases |xs|
  {
    if xs == [] {
      assert xs + ys == ys;
    } else {
      assert (xs + ys)[0] == xs[0];
      assert (xs + ys)[1..] == xs[1..] + ys;
      FilterAppend(xs[1..], ys, p);
    }
  }

  /** Filtering keeps a sequence whose every element passes. */
  lemma {:induction false} FilterKeepsAll<T>(xs: seq<T>, p: T -> bool)
    requires forall k :: 0 <= k < |xs| ==> p(xs[k])
    ensures Filter(xs, p) == xs
    decreases |xs|
  {
    if xs != [] {
      FilterKeepsAll(xs[1..], p);
    }
  }
}

=== FILE: text.dfy ===
/**
 * The few JavaScript string operations the relay relies on, over `seq<char>`:
 * `indexOf`, `split` on one character, `join`, `trim`, and `String(n)` for
 * integer numbers.
 */
module Text {

  /**
   * The code points ECMAScript calls WhiteSpace or LineTerminator: exactly
   * what `String.prototype.trim` strips and what the regular-expression
   * class `\s` matches.
   */
  predicate IsJsSpace(c: char) {
    || c == '\t' || c == '\n' || c == '\U{000B}' || c == '\U{000C}' || c == '\r'
    || c == ' ' || c == '\U{00A0}' || c == '\U{1680}'
    || ('\U{2000}' <= c <= '\U{200A}')
    || c == '\U{2028}' || c == '\U{2029}' || c == '\U{202F}' || c == '\U{205F}'
    || c == '\U{3000}' || c == '\U{FEFF}'
  }

  /** No leading and no trailing JavaScript white space. */
  predicate Trimmed(s: string) {
    s == [] || (!IsJsSpace(s[0]) && !IsJsSpace(s[|s| - 1]))
  }

  /** `s.indexOf(c, p)`, with "not found" reported as `|s|`. */
  function IndexFrom(s: string, p: nat, c: char): (r: nat)
    requires p <= |s|
    ensures p <= r <= |s|
    ensures forall k :: p <= k < r ==> s[k] != c
    ensures r < |s| ==> s[r] == c
    decreases |s| - p
  {
    if p == |s| || s[p] == c then p else IndexFrom(s, p + 1, c)
  }

  /** `parts.join(sep)`. */
  function Join(parts: seq<string>, sep: string): string
  {
    if |parts| == 0 then ""
    else if |parts| == 1 then parts[0]
    else parts[0] + sep + Join(parts[1..], sep)
  }

  /**
   * `s.split(c)` for a one-character separator: the pieces between the
   * occurrences of `c`, at least one, none containing `c`.
   */
  function Split(s: string, c: char): (parts: seq<string>)
    ensures |parts| >= 1
    ensures forall k :: 0 <= k < |parts| ==> c !in parts[k]
    decreases |s|
  {
    var i := IndexFrom(s, 0, c);
    if i == |s| then [s] else [s[..i]] + Split(s[i + 1..], c)
  }

  /** Joining the pieces with `c` gives back the split text. */
  lemma {:induction false} JoinSplit(s: string, c: char)
    ensures Join(Split(s, c), [c]) == s
    decreases |s|
  {
    var i := IndexFrom(s, 0, c);
    if i == |s| {
      assert s[..i] == s;
    } else {
      JoinSplit(s[i + 1..], c);
      assert s == s[..i] + [c] + s[i + 1..];
    }
  }

  /** The first piece is the text before the first `c`, or all of it. */
  lemma SplitFirst(s: string, c: char)
    ensures Split(s, c)[0] == s[..IndexFrom(s, 0, c)]
  {
  }

  /** When `c` occurs, the first piece is followed by the pieces of the text after the first `c`. */
  lemma SplitStep(s: string, c: char)
    requires IndexFrom(s, 0, c) < |s|
    ensures Split(s, c) == [s[..IndexFrom(s, 0, c)]] + Split(s[IndexFrom(s, 0, c) + 1..], c)
  {
  }

  /** With two or more pieces, the second is the text after the first `c`, up to the next `c`. */
  lemma SplitSecond(s: string, c: char) returns (i: nat, j: nat)
    requires |Split(s, c)| >= 2
    ensures i < |s| && s[i] == c && i == IndexFrom(s, 0, c)
    ensures j == IndexFrom(s[i + 1..], 0, c)
    ensures Split(s, c)[0] == s[..i] && Split(s, c)[1] == s[i + 1..][..j]
  {
    i := IndexFrom(s, 0, c);
    SplitStep(s, c);
    SplitFirst(s[i + 1..], c);
    j := IndexFrom(s[i + 1..], 0, c);
  }

  /** Joining two non-empty lists puts one separator between their joins. */
  lemma {:induction false} JoinAppend(xs: seq<string>, ys: seq<string>, sep: string)
    requires |xs| >= 1 && |ys| >= 1
    ensures Join(xs + ys, sep) == Join(xs, sep) + sep + Join(ys, sep)
    decreases |xs|
  {
    if |xs| == 1 {
      assert (xs + ys)[1..] == ys;
    } else {
      assert (xs + ys)[1..] == xs[1..] + ys;
      JoinAppend(xs[1..], ys, sep);
    }
  }

  /** Splitting on `c` undoes joining with `c` when no piece contains `c`. */
  lemma {:induction false} SplitJoin(parts: seq<string>, c: char)
    requires |parts| >= 1
    requires forall k :: 0 <= k < |parts| ==> c !in parts[k]
    ensures Split(Join(parts, [c]), c) == parts
    decreases |parts|
  {
    var s := Join(parts, [c]);
    var i := IndexFrom(s, 0, c);
    if |parts| == 1 {
      assert s == parts[0];
    } else {
      var tail := Join(parts[1..], [c]);
      assert s == parts[0] + [c] + tail;
      assert s[|parts[0]|] == c;
      assert i == |parts[0]|;
      assert s[..i] == parts[0];
      assert s[i + 1..] == tail;
      SplitJoin(parts[1..], c);
    }
  }

  /** The first piece of a split is what stands before the first separator. */
  lemma SplitHead(a: string, c: char, b: string)
    requires c !in a
    ensures Split(a + [c] + b, c) == [a] + Split(b, c)
  {
    var s := a + [c] + b;
    assert forall k :: 0 <= k < |a| ==> s[k] == a[k];
    assert s[|a|] == c;
    assert IndexFrom(s, 0, c) == |a|;
    assert s[..|a|] == a && s[|a| + 1..] == b;
  }

  /** The first piece is the text before the first separator. */
  lemma SplitBefore(a: string, c: char, b: string)
    requires c !in a
    ensures Split(a + [c] + b, c)[0] == a
  {
    SplitHead(a, c, b);
  }

  /** The first piece of `a` followed by nothing or by a separator is `a`. */
  lemma SplitFirstPiece(a: string, c: char, tail: string)
    requires c !in a
    requires tail == [] || tail[0] == c
    ensures Split(a + tail, c)[0] == a
  {
    if tail == [] {
      assert a + tail == a;
      SplitNone(a, c);
    } else {
      SplitBeforeTail(a, c, tail);
    }
  }

  lemma SplitBeforeTail(a: string, c: char, tail: string)
    requires c !in a
    requires tail != [] && tail[0] == c
    ensures Split(a + tail, c)[0] == a
  {
    assert a + tail == a + [c] + tail[1..];
    SplitBefore(a, c, tail[1..]);
  }

  /** A string without the separator splits into itself alone. */
  lemma SplitNone(a: string, c: char)
    requires c !in a
    ensures Split(a, c) == [a]
  {
    SplitJoin([a], c);
  }

  /** `s.trimStart()`: drop the leading white space. */
  function TrimStart(s: string): (r: string)
    ensures |r| <= |s| && r == s[|s| - |r|..]
    ensures r == [] || !IsJsSpace(r[0])
    ensures forall k :: 0 <= k < |s| - |r| ==> IsJsSpace(s[k])
    decreases |s|
  {
    if |s| > 0 && IsJsSpace(s[0]) then TrimStart(s[1..]) else s
  }

  /** `s.trimEnd()`: drop the trailing white space. */
  function TrimEnd(s: string): (r: string)
    ensures |r| <= |s| && r == s[..|r|]
    ensures r == [] || !IsJsSpace(r[|r| - 1])
    ensures forall k :: |r| <= k < |s| ==> IsJsSpace(s[k])
    decreases |s|
  {
    if |s| > 0 && IsJsSpace(s[|s| - 1]) then TrimEnd(s[..|s| - 1]) else s
  }

  /** `s.trim()`: drop the leading and the trailing white space. */
  function Trim(s: string): (r: string)
    ensures |r| <= |s|
    ensures Trimmed(r)
  {
    TrimEnd(TrimStart(s))
  }

  /**
   * What `trim()` keeps is one contiguous piece `s[i..j]` of its input, kept
   * as it is, and everything it drops before and after that piece is white
   * space.
   */
  lemma TrimPiece(s: string) returns (i: nat, j: nat)
    ensures i <= j <= |s| && Trim(s) == s[i..j]
    ensures forall k :: 0 <= k < i ==> IsJsSpace(s[k])
    ensures forall k :: j <= k < |s| ==> IsJsSpace(s[k])
  {
    var t := TrimStart(s);
    i := |s| - |t|;
    var r := TrimEnd(t);
    j := i + |r|;
    assert r == s[i..j];
    assert forall k :: j <= k < |s| ==> s[k] == t[k - i];
  }

  /** Trimming changes nothing in a string that is already trimmed. */
  lemma TrimKeeps(s: string)
    requires Trimmed(s)
    ensures Trim(s) == s
  {
  }

  predicate IsDigits(d: string) {
    forall k :: 0 <= k < |d| ==> '0' <= d[k] <= '9'
  }

  /** The digit for `0 <= d <= 9`. */
  function Digit(d: nat): (c: char)
    requires d < 10
    ensures '0' <= c <= '9' && c as int - '0' as int == d
  {
    ('0' as int + d) as char
  }

  /** The decimal digits of a natural number, most significant first, without leading zeros. */
  function NaturalText(n: nat): (r: string)
    ensures |r| >= 1 && IsDigits(r)
    ensures n > 0 ==> r[0] != '0'
    decreases n
  {
    if n < 10 then [Digit(n)]
    else NaturalText(n / 10) + [Digit(n % 10)]
  }

  /** The number a string of decimal digits denotes. */
  function DigitsValue(d: string): nat
    requires IsDigits(d)
    decreases |d|
  {
    if d == [] then 0
    else DigitsValue(d[..|d| - 1]) * 10 + (d[|d| - 1] as int - '0' as int)
  }

  /**
   * `String(n)` for a JavaScript number holding an integer: its decimal
   * text, with a leading minus sign when negative. It is never the lone
   * placeholder "-", so a count can always be told apart from it.
   */
  function NumberText(n: int): (r: string)
    ensures |r| >= 1 && r != "-"
    ensures n >= 0 ==> IsDigits(r)
    ensures n < 0 ==> |r| >= 2 && r[0] == '-' && IsDigits(r[1..])
  {
    if n < 0 then "-" + NaturalText(-n) else NaturalText(n)
  }

  /** Reading back an optionally signed decimal text. */
  function DecimalValue(r: string): int
    requires IsDigits(r) || (|r| >= 1 && r[0] == '-' && IsDigits(r[1..]))
  {
    if |r| >= 1 && r[0] == '-' then -(DigitsValue(r[1..]) as int) else DigitsValue(r)
  }

  /** The digits of `n` denote `n`. */
  lemma {:induction false} NaturalTextValue(n: nat)
    ensures DigitsValue(NaturalText(n)) == n
    decreases n
  {
    var r := NaturalText(n);
    if n < 10 {
      assert r[..|r| - 1] == [];
    } else {
      NaturalTextValue(n / 10);
      assert r[..|r| - 1] == NaturalText(n / 10);
    }
  }

  /** `String(n)` reads back as `n`. */
  lemma NumberTextValue(n: int)
    ensures DecimalValue(NumberText(n)) == n
  {
    if n < 0 {
      NaturalTextValue(-n);
      assert NumberText(n)[1..] == NaturalText(-n);
    } else {
      NaturalTextValue(n);
    }
  }

  /** Different numbers are written differently. */
  lemma NumberTextInjective(a: int, b: int)
    ensures NumberText(a) == NumberText(b) ==> a == b
  {
    NumberTextValue(a);
    NumberTextValue(b);
  }
}

=== FILE: token_scan.dfy ===
/**
 * The three fixed patterns the portal stages look for in an HTML body, as
 * scanners. Each pattern is first stated declaratively (what an occurrence
 * at a position looks like), then computed the way a backtracking regular
 * expression engine finds its first match: the leftmost starting position,
 * and at that position the greedy choice.
 *
 *   samlRequest:  name="samlRequest"\s+value="([^"]+)"
 *   SAMLResponse: name="SAMLResponse"\s+value="([^"]+)"
 *   CSRF token:   id="_csrf"[^>]*content="([^"]+)"
 */
module TokenScan {
  import opened Wrappers
  import opened Text

  const SamlRequestField: string := "name=\"samlRequest\""
  const SamlResponseField: string := "name=\"SAMLResponse\""
  const ValueOpen: string := "value=\""
  const CsrfField: string := "id=\"_csrf\""
  const ContentOpen: string := "content=\""

  /** Which of the three patterns to look for. */
  datatype Pattern = SamlRequestPattern | SamlResponsePattern | CsrfPattern

  /** `lit` occurs in `s` starting at position `i`. */
  predicate StartsAt(s: string, i: nat, lit: string) {
    i + |lit| <= |s| && s[i..i + |lit|] == lit
  }

  predicate AllSpace(w: string) {
    forall k :: 0 <= k < |w| ==> IsJsSpace(w[k])
  }

  // ---------------------------------------------------------------------
  // Declarative occurrences
  // ---------------------------------------------------------------------

  /** At `p`: `open`, a non-empty run `v` free of `"`, then a closing `"`. */
  predicate QuotedAt(s: string, p: nat, open: string, v: string) {
    |v| > 0 && '"' !in v && StartsAt(s, p, open + v + "\"")
  }

  /** `field\s+value="v"` occurs at `i`, with `w` the white space matched by `\s+`. */
  predicate FieldValueAt(s: string, i: nat, field: string, w: string, v: string) {
    |w| > 0 && AllSpace(w) && StartsAt(s, i, field + w)
    && QuotedAt(s, i + |field| + |w|, ValueOpen, v)
  }

  /** `id="_csrf"[^>]*content="v"` occurs at `i`, with `m` the text matched by `[^>]*`. */
  predicate CsrfAt(s: string, i: nat, m: string, v: string) {
    '>' !in m && StartsAt(s, i, CsrfField + m)
    && QuotedAt(s, i + |CsrfField| + |m|, ContentOpen, v)
  }

  lemma StartsAtConcat(s: string, i: nat, a: string, b: string)
    ensures StartsAt(s, i, a + b) <==> StartsAt(s, i, a) && StartsAt(s, i + |a|, b)
  {
    if StartsAt(s, i, a + b) {
      assert s[i..i + |a|] == (a + b)[..|a|];
      assert s[i + |a|..i + |a| + |b|] == (a + b)[|a|..];
    }
    if StartsAt(s, i, a) && StartsAt(s, i + |a|, b) {
      assert s[i..i + |a| + |b|] == s[i..i + |a|] + s[i + |a|..i + |a| + |b|];
    }
  }

  // ---------------------------------------------------------------------
  // Matching at one position
  // ---------------------------------------------------------------------

  /** The end of the run of white space that starts at `p` (`\s+` is greedy). */
  function SkipSpace(s: string, p: nat): (r: nat)
    requires p <= |s|
    ensures p <= r <= |s|
    ensures forall q :: p <= q < r ==> IsJsSpace(s[q])
    ensures r < |s| ==> !IsJsSpace(s[r])
    decreases |s| - p
  {
    if p < |s| && IsJsSpace(s[p]) then SkipSpace(s, p + 1) else p
  }

  /** `open` then `([^"]+)"` at `p`; the capture runs up to the next quote. */
  function QuotedValue(s: string, p: nat, open: string): (r: Option<string>)
    ensures r.Some? ==> QuotedAt(s, p, open, r.value)
  {
    if StartsAt(s, p, open) then
      var a := p + |open|;
      var q := IndexFrom(s, a, '"');
      if a < q < |s| then
        assert StartsAt(s, p, open + s[a..q] + "\"") by {
          StartsAtConcat(s, p, open, s[a..q]);
          StartsAtConcat(s, p, open + s[a..q], "\"");
        }
        Some(s[a..q])
      else None
    else None
  }

  lemma QuotedValueComplete(s: string, p: nat, open: string, v: string)
    requires QuotedAt(s, p, open, v)
    ensures QuotedValue(s, p, open) == Some(v)
  {
    StartsAtConcat(s, p, open + v, "\"");
    StartsAtConcat(s, p, open, v);
    var a := p + |open|;
    var q := IndexFrom(s, a, '"');
    assert s[a + |v|] == '"';
    assert forall k :: a <= k < a + |v| ==> s[k] == v[k - a];
    assert q == a + |v|;
  }

  /** `field\s+value="([^"]+)"` tried at position `i`. */
  function FieldValueMatchAt(s: string, i: nat, field: string): (r: Option<string>)
    ensures r.Some? ==> |r.value| > 0 && '"' !in r.value
  {
    if StartsAt(s, i, field) then
      var j := i + |field|;
      var k := SkipSpace(s, j);
      if j < k then QuotedValue(s, k, ValueOpen) else None
    else None
  }

  lemma FieldValueSound(s: string, i: nat, field: string)
    requires FieldValueMatchAt(s, i, field).Some?
    ensures FieldValueAt(s, i, field, s[i + |field|..SkipSpace(s, i + |field|)],
                         FieldValueMatchAt(s, i, field).value)
  {
    var j := i + |field|;
    var k := SkipSpace(s, j);
    var w := s[j..k];
    StartsAtConcat(s, i, field, w);
  }

  lemma FieldValueComplete(s: string, i: nat, field: string, w: string, v: string)
    requires FieldValueAt(s, i, field, w, v)
    ensures FieldValueMatchAt(s, i, field) == Some(v)
  {
    StartsAtConcat(s, i, field, w);
    var j := i + |field|;
    var p := j + |w|;
    StartsAtConcat(s, p, ValueOpen + v, "\"");
    StartsAtConcat(s, p, ValueOpen, v);
    assert s[p] == 'v';
    var k := SkipSpace(s, j);
    assert forall q :: j <= q < p ==> s[q] == w[q - j];
    assert k == p;
    QuotedValueComplete(s, p, ValueOpen, v);
  }

  /**
   * The greedy `[^>]*`: the largest position in `[j, k]` where
   * `content="([^"]+)"` matches.
   */
  function LastContentFrom(s: string, j: nat, k: nat): (r: Option<nat>)
    requires j <= k
    ensures r.Some? ==> j <= r.value <= k && QuotedValue(s, r.value, ContentOpen).Some?
    ensures r.Some? ==> forall p :: r.value < p <= k ==> QuotedValue(s, p, ContentOpen).None?
    ensures r.None? ==> forall p :: j <= p <= k ==> QuotedValue(s, p, ContentOpen).None?
    decreases k - j
  {
    if QuotedValue(s, k, ContentOpen).Some? then Some(k)
    else if k == j then None
    else LastContentFrom(s, j, k - 1)
  }

  /**
   * Where `content="` starts in the match of `id="_csrf"[^>]*content="([^"]+)"`
   * tried at position `i`: the greedy `[^>]*` runs up to the first `>` and
   * backs off to the last position where the rest matches.
   */
  function CsrfContentPos(s: string, i: nat): (r: Option<nat>)
    ensures r.Some? ==> i + |CsrfField| <= r.value <= |s|
    ensures r.Some? ==> QuotedValue(s, r.value, ContentOpen).Some?
  {
    if StartsAt(s, i, CsrfField) then
      var j := i + |CsrfField|;
      LastContentFrom(s, j, IndexFrom(s, j, '>'))
    else None
  }

  /** `id="_csrf"[^>]*content="([^"]+)"` tried at position `i`. */
  function CsrfMatchAt(s: string, i: nat): (r: Option<string>)
    ensures r.Some? ==> |r.value| > 0 && '"' !in r.value
    ensures r.Some? <==> CsrfContentPos(s, i).Some?
  {
    match CsrfContentPos(s, i)
    case Some(p) => QuotedValue(s, p, ContentOpen)
    case None => None
  }

  /** A filler free of `>` ends no later than the first `>` after its start. */
  lemma FillerBound(s: string, j: nat, m: string)
    requires j + |m| <= |s| && s[j..j + |m|] == m
    ensures '>' !in m <==> j + |m| <= IndexFrom(s, j, '>')
  {
    var e := IndexFrom(s, j, '>');
    assert forall k :: 0 <= k < |m| ==> m[k] == s[j + k];
    if j + |m| <= e {
      forall k | 0 <= k < |m| ensures m[k] != '>' {
        assert m[k] == s[j + k];
      }
    }
  }

  lemma CsrfSound(s: string, i: nat)
    requires CsrfMatchAt(s, i).Some?
    ensures CsrfAt(s, i, s[i + |CsrfField|..CsrfContentPos(s, i).value], CsrfMatchAt(s, i).value)
  {
    var j := i + |CsrfField|;
    var p := CsrfContentPos(s, i).value;
    var m := s[j..p];
    FillerBound(s, j, m);
    StartsAtConcat(s, i, CsrfField, m);
  }

  /** Every occurrence at `i` ends its filler no later than the one the scanner picks. */
  lemma CsrfGreedy(s: string, i: nat, m: string, v: string)
    requires CsrfAt(s, i, m, v)
    ensures CsrfContentPos(s, i).Some?
    ensures i + |CsrfField| + |m| <= CsrfContentPos(s, i).value
  {
    var j := i + |CsrfField|;
    StartsAtConcat(s, i, CsrfField, m);
    FillerBound(s, j, m);
    QuotedValueComplete(s, j + |m|, ContentOpen, v);
  }

  // ---------------------------------------------------------------------
  // The first match in a whole body
  // ---------------------------------------------------------------------

  function MatchAt(s: string, i: nat, pattern: Pattern): (r: Option<string>)
    ensures r.Some? ==> |r.value| > 0 && '"' !in r.value
  {
    match pattern
    case SamlRequestPattern => FieldValueMatchAt(s, i, SamlRequestField)
    case SamlResponsePattern => FieldValueMatchAt(s, i, SamlResponseField)
    case CsrfPattern => CsrfMatchAt(s, i)
  }

  /** The leftmost position from `i` on where `pattern` matches. */
  function LeftmostAt(s: string, i: nat, pattern: Pattern): (r: Option<nat>)
    requires i <= |s|
    ensures r.Some? ==> i <= r.value <= |s| && MatchAt(s, r.value, pattern).Some?
    ensures r.Some? ==> forall j :: i <= j < r.value ==> MatchAt(s, j, pattern).None?
    ensures r.None? ==> forall k :: i <= k <= |s| ==> MatchAt(s, k, pattern).None?
    decreases |s| - i
  {
    if MatchAt(s, i, pattern).Some? then Some(i)
    else if i == |s| then None
    else LeftmostAt(s, i + 1, pattern)
  }

  /**
   * `html.match(pattern)?.[1]`: the capture of the first match, which is
   * non-empty and free of `"`.
   */
  function FirstMatch(html: string, pattern: Pattern): (r: Option<string>)
    ensures r.Some? ==> |r.value| > 0 && '"' !in r.value
  {
    match LeftmostAt(html, 0, pattern)
    case Some(k) => MatchAt(html, k, pattern)
    case None => None
  }

  function FieldOf(pattern: Pattern): string
    requires pattern != CsrfPattern
  {
    if pattern == SamlRequestPattern then SamlRequestField else SamlResponseField
  }

  /**
   * The samlRequest and SAMLResponse scanners find exactly the leftmost
   * occurrence of `field\s+value="…"`: none when the body has no occurrence,
   * otherwise the value of an occurrence before which there is none.
   */
  lemma FieldValueFound(html: string, pattern: Pattern, i: nat, w: string, v: string)
    requires pattern != CsrfPattern
    requires FieldValueAt(html, i, FieldOf(pattern), w, v)
    ensures i <= |html| && MatchAt(html, i, pattern) == Some(v)
  {
    FieldValueComplete(html, i, FieldOf(pattern), w, v);
  }

  lemma CsrfFound(html: string, i: nat, m: string, v: string)
    requires CsrfAt(html, i, m, v)
    ensures i <= |html| && MatchAt(html, i, CsrfPattern).Some?
  {
    CsrfGreedy(html, i, m, v);
  }

  lemma {:induction false} FieldValueFirstMatch(html: string, pattern: Pattern)
    requires pattern != CsrfPattern
    ensures FirstMatch(html, pattern).None? <==>
              forall i: nat, w, v :: !FieldValueAt(html, i, FieldOf(pattern), w, v)
    ensures FirstMatch(html, pattern).Some? ==>
              exists i: nat, w :: FieldValueAt(html, i, FieldOf(pattern), w, FirstMatch(html, pattern).value)
                && forall j: nat, w', v' :: j < i ==> !FieldValueAt(html, j, FieldOf(pattern), w', v')
  {
    var field := FieldOf(pattern);
    match LeftmostAt(html, 0, pattern)
    case None =>
      forall i: nat, w, v | FieldValueAt(html, i, field, w, v) ensures false {
        FieldValueFound(html, pattern, i, w, v);
      }
    case Some(k) =>
      FieldValueSound(html, k, field);
      forall j: nat, w', v' | j < k && FieldValueAt(html, j, field, w', v') ensures false {
        FieldValueFound(html, pattern, j, w', v');
      }
  }

  /**
   * The CSRF scanner finds the leftmost `id="_csrf"` that has a
   * `content="…"` before the next `>`, and of those the last one (the
   * greedy `[^>]*`); none when there is no such occurrence.
   */
  lemma {:induction false} CsrfFirstMatch(html: string)
    ensures FirstMatch(html, CsrfPattern).None? <==> forall i: nat, m, v :: !CsrfAt(html, i, m, v)
    ensures FirstMatch(html, CsrfPattern).Some? ==>
              exists i: nat, m :: CsrfAt(html, i, m, FirstMatch(html, CsrfPattern).value)
                && (forall m', v' :: CsrfAt(html, i, m', v') ==> |m'| <= |m|)
                && forall j: nat, m', v' :: j < i ==> !CsrfAt(html, j, m', v')
  {
    match LeftmostAt(html, 0, CsrfPattern)
    case None =>
      forall i: nat, m, v | CsrfAt(html, i, m, v) ensures false {
        CsrfFound(html, i, m, v);
      }
    case Some(k) =>
      CsrfSound(html, k);
      var m := html[k + |CsrfField|..CsrfContentPos(html, k).value];
      forall m', v' | CsrfAt(html, k, m', v') ensures |m'| <= |m| {
        CsrfGreedy(html, k, m', v');
      }
      forall j: nat, m', v' | j < k && CsrfAt(html, j, m', v') ensures false {
        CsrfFound(html, j, m', v');
      }
  }
}

=== FILE: types.dfy ===
/**
 * The records that travel between the gateway and the services over the
 * broker (the shared type library of the repository).
 */
module Types {
  import opened Wrappers

  /** `Response.ok` of a portal reply: a status in 200..299. */
  predicate IsOk(status: int) {
    200 <= status <= 299
  }

  /** Stage 2 request: credentials, the stage-1 artifact, the portal cookies. */
  datatype AuthData = AuthData(id: string, password: string, samlRequest: string, cookies: seq<string>)

  /** Stage 3 request: the stage-2 artifact and the portal cookies. */
  datatype LoginData = LoginData(samlResponse: string, cookies: seq<string>)

  /** Stage 1 reply. */
  datatype LoginFormResponse = LoginFormResponse(samlRequest: string, cookies: seq<string>)

  /** Stage 2 reply. */
  datatype AuthResponse = AuthResponse(samlResponse: string, cookies: seq<string>)

  /**
   * Stage 3 reply. The shared type declares an access token, which the user
   * service never fills in; an absent token is `None`.
   */
  datatype LoginResponse = LoginResponse(csrf: string, cookies: seq<string>, accessToken: Option<string>)

  /** The request of the logout and user-info operations: the CSRF token and the portal cookies. */
  datatype SessionData = SessionData(csrf: string, cookies: seq<string>)

  /** The portal's user record; every field is optional. `shtmFg` is the source's `SHTM_FG`. */
  datatype TrinityInfo = TrinityInfo(
    userNm: Option<string>, userNo: Option<string>, deptNm: Option<string>,
    campFg: Option<string>, shtmYyyy: Option<string>, shtmFg: Option<string>,
    shtm: Option<string>, yyyy: Option<string>)

  datatype UserInfoResponse = UserInfoResponse(userInfo: TrinityInfo)

  /** The current term and year kept by the management service; either may be null. */
  datatype ShtmYyyy = ShtmYyyy(shtm: Option<string>, yyyy: Option<string>)

  datatype SubjectInfoRequest = SubjectInfoRequest(
    csrf: string, cookies: seq<string>, sujtNo: string, classNo: string,
    campFg: string, shtm: string, yyyy: string)

  datatype SubjectInfoResponse = SubjectInfoResponse(
    sbjtKorNm: string, sujtNo: string, classNo: string, tlsnAplyRcnt: string,
    tlsnLmtRcnt: string, sustCd: string, extraCnt: string)

  datatype GradeRequest = GradeRequest(
    csrf: string, cookies: seq<string>, campFg: string, shtmYyyy: string, shtmFg: string, stdNo: string)

  /** One graded course of the current term. */
  datatype CurrentGradeInfo = CurrentGradeInfo(
    sbjtNo: Option<string>, sbjtKorNm: Option<string>, centesScorAdm: Option<string>,
    estiYn: Option<string>, grdAdm: Option<string>, details: seq<string>)

  datatype GradeResponse = GradeResponse(grades: seq<CurrentGradeInfo>)
}

=== FILE: user_controller.dfy ===
/**
 * The user service's message handlers: topic provisioning at start-up,
 * the stage-3 handler that announces a login to the management service,
 * and the user-info handler that adds the current term and year kept by
 * the management service.
 */
module UserController {
  import opened Wrappers
  import opened Types
  import opened Provisioning
  import UserService

  /** The request topics this service answers, created one by one at start-up. */
  const Topics: seq<string> := ["user.loginForm", "user.auth", "user.login", "user.logout", "user.userInfo"]

  /** A message this service puts on the broker towards the management service. */
  datatype Dispatch =
    | Emit(topic: string)  // fire-and-forget event
    | Send(topic: string)  // request awaiting a reply

  /** A JavaScript truthiness test on an optional string: present and non-empty. */
  predicate Truthy(s: Option<string>) {
    s.Some? && s.value != ""
  }

  /** The user record with the management service's term and year laid over it, where given. */
  function Enriched(info: TrinityInfo, term: ShtmYyyy): (r: TrinityInfo)
    ensures r.userNm == info.userNm && r.userNo == info.userNo && r.deptNm == info.deptNm
    ensures r.campFg == info.campFg && r.shtmYyyy == info.shtmYyyy && r.shtmFg == info.shtmFg
    ensures Truthy(term.shtm) ==> r.shtm == term.shtm
    ensures !Truthy(term.shtm) ==> r.shtm == info.shtm
    ensures Truthy(term.yyyy) ==> r.yyyy == term.yyyy
    ensures !Truthy(term.yyyy) ==> r.yyyy == info.yyyy
  {
    var withShtm := if Truthy(term.shtm) then info.(shtm := term.shtm) else info;
    if Truthy(term.yyyy) then withShtm.(yyyy := term.yyyy) else withShtm
  }

  /** What the handler works with when the management call fails: neither term nor year. */
  function TermOrNothing(reply: Outcome<ShtmYyyy>): (r: ShtmYyyy)
    ensures reply.Replied? ==> r == reply.reply
    ensures reply.Failed? ==> r.shtm.None? && r.yyyy.None?
  {
    if reply.Replied? then reply.reply else ShtmYyyy(None, None)
  }

  /** A failed management call leaves the record exactly as the user service produced it. */
  lemma EnrichedWithoutTerm(info: TrinityInfo)
    ensures Enriched(info, TermOrNothing(Failed)) == info
  {
  }

  /** Laying the same term over the record twice changes nothing more. */
  lemma EnrichedIdempotent(info: TrinityInfo, term: ShtmYyyy)
    ensures Enriched(Enriched(info, term), term) == Enriched(info, term)
  {
  }

  class UserServiceController {
    /** The messages sent to the management service so far, in order. */
    var dispatched: seq<Dispatch>

    constructor()
      ensures dispatched == []
    {
      dispatched := [];
    }

    /** Start-up: one create call per request topic; only those reported created are recorded. */
    method OnModuleInit(outcomes: seq<CreateOutcome>) returns (created: seq<string>)
      requires |outcomes| == |Topics|
      ensures created == CreatedTopics(Topics, outcomes)
    {
      created := CreateEach(Topics, outcomes);
    }

    /**
     * Stage 3: the login event goes out only once the stage has returned,
     * so a failing stage announces nothing; the stage's answer is passed
     * on as it is.
     */
    method Login(data: LoginData, portal: UserService.PortalRequest -> UserService.PortalReply)
      returns (r: Result<LoginResponse, UserService.StageError>)
      modifies this
      ensures r == UserService.Login(data, portal)
      ensures r.Ok? ==> dispatched == old(dispatched) + [Emit("management.loginSuccess")]
      ensures r.Err? ==> dispatched == old(dispatched)
    {
      r := UserService.Login(data, portal);
      if r.Ok? {
        dispatched := dispatched + [Emit("management.loginSuccess")];
      }
    }

    /**
     * The user-info handler. `fetched` is what the user service's own
     * lookup produced (a failure makes the handler throw before anything
     * is sent); `term` is the management service's answer, whose failure
     * counts as neither term nor year.
     */
    method GetUserInfo(fetched: Outcome<UserInfoResponse>, term: Outcome<ShtmYyyy>)
      returns (r: Outcome<UserInfoResponse>)
      modifies this
      ensures fetched.Failed? ==> r.Failed? && dispatched == old(dispatched)
      ensures fetched.Replied? ==>
                && dispatched == old(dispatched) + [Send("management.getShtmYyyy")]
                && r == Replied(UserInfoResponse(Enriched(fetched.reply.userInfo, TermOrNothing(term))))
    {
      if fetched.Failed? {
        return Failed;
      }
      var info := fetched.reply.userInfo;
      dispatched := dispatched + [Send("management.getShtmYyyy")];
      var given := if term.Replied? then term.reply else ShtmYyyy(None, None);
      if given.shtm.Some? && given.shtm.value != "" {
        info := info.(shtm := given.shtm);
      }
      if given.yyyy.Some? && given.yyyy.value != "" {
        info := info.(yyyy := given.yyyy);
      }
      r := Replied(UserInfoResponse(info));
    }
  }
}

=== FILE: user_service.dfy ===
/**
 * The user service's stage handlers. Each stage sends one request to the
 * portal (two for stage 3), checks the status, scans the body for the next
 * artifact, and returns it with the cookies to carry on. The portal is a
 * parameter: a function from the request sent to the reply received, where
 * a reply is its status, `Location` header, `Set-Cookie` list and body text.
 */
module UserService {
  import opened Wrappers
  import opened Text
  import opened Seqs
  import opened TokenScan
  import opened Types

  const BasePath: string := "https://uportal.catholic.ac.kr"
  const LoginFormUrl: string := BasePath + "/sso/jsp/sso/ip/login_form.jsp"
  const AuthUrl: string := BasePath + "/sso/processAuthnResponse.do"
  const LoginUrl: string := BasePath + "/portal/login/login.ajax"
  /** The stage-3 follow-up address: fixed, plain http, ending in an invisible U+2060. */
  const LoginSuccessUrl: string := "http://uportal.catholic.ac.kr/portal/loginSuccess.do\U{2060}"

  datatype HttpMethod = Get | Post

  /**
   * What a stage sends: method, address, `Cookie` header, form fields, and
   * whether redirects are followed (`redirect: 'manual'` means they are not).
   */
  datatype PortalRequest = PortalRequest(
    verb: HttpMethod, url: string, cookie: Option<string>,
    form: seq<(string, string)>, followRedirects: bool)

  datatype PortalReply = PortalReply(status: int, location: Option<string>, setCookie: seq<string>, body: string)

  predicate IsRedirect(status: int) {
    status == 301 || status == 302
  }

  /** The errors the stages throw, one per `throw` in the source. */
  datatype StageError =
    | LoginFormRequestFailed
    | SamlRequestNotFound
    | AuthRequestFailed
    | WrongIdOrPassword
    | RedirectUrlMissing
    | RedirectRequestFailed
    | CsrfNotFound
    | LoginRequestFailed

  // ---------------------------------------------------------------------
  // Cookie helpers
  // ---------------------------------------------------------------------

  /**
   * Keeps of each `Set-Cookie` header the `name=value` part: the text up to
   * its first `;`. One result per header, in order.
   */
  function ParseCookies(setCookie: seq<string>): (r: seq<string>)
    ensures |r| == |setCookie|
    ensures forall k :: 0 <= k < |r| ==>
              r[k] <= setCookie[k] && ';' !in r[k]
              && (|r[k]| < |setCookie[k]| ==> setCookie[k][|r[k]|] == ';')
  {
    seq(|setCookie|, k requires 0 <= k < |setCookie| => Split(setCookie[k], ';')[0])
  }

  /** A `Set-Cookie` header is kept up to its attributes. */
  lemma ParseCookiesOne(pair: string, attributes: string)
    requires ';' !in pair
    requires attributes == "" || attributes[0] == ';'
    ensures ParseCookies([pair + attributes]) == [pair]
  {
    SplitFirstPiece(pair, ';', attributes);
  }

  /** A cookie's name as the header formatter reads it: the text before the first `=`. */
  function CookieName(cookie: string): string {
    Split(cookie, '=')[0]
  }

  /** Cookies that are the relay's own artifacts are never sent to the portal. */
  predicate SentToPortal(cookie: string) {
    CookieName(cookie) != "samlRequest" && CookieName(cookie) != "samlResponse"
  }

  /** The cookies the `Cookie` header carries, in their original order. */
  function PortalCookies(cookies: seq<string>): (r: seq<string>)
    ensures forall k :: 0 <= k < |r| ==> r[k] in cookies && SentToPortal(r[k])
    ensures forall k :: 0 <= k < |cookies| && SentToPortal(cookies[k]) ==> cookies[k] in r
  {
    Filter(cookies, SentToPortal)
  }

  /**
   * The `Cookie` header: the portal cookies joined with "; ". It is empty
   * when no cookie qualifies, and otherwise starts with the first one that does.
   */
  function FormatCookieHeader(cookies: seq<string>): (r: string)
    ensures PortalCookies(cookies) == [] ==> r == ""
    ensures PortalCookies(cookies) != [] ==> PortalCookies(cookies)[0] <= r
  {
    Join(PortalCookies(cookies), "; ")
  }

  /** Without SAML artifacts among the cookies, the header is all of them joined with "; ". */
  lemma FormatCookieHeaderAll(cookies: seq<string>)
    requires forall k :: 0 <= k < |cookies| ==> SentToPortal(cookies[k])
    ensures FormatCookieHeader(cookies) == Join(cookies, "; ")
  {
    FilterKeepsAll(cookies, SentToPortal);
  }

  /**
   * The header for accumulated cookies is the header for the earlier ones,
   * "; ", then the header for the new ones (when both are non-empty).
   */
  lemma FormatCookieHeaderAppend(old_: seq<string>, new_: seq<string>)
    ensures PortalCookies(old_) == [] ==> FormatCookieHeader(old_ + new_) == FormatCookieHeader(new_)
    ensures PortalCookies(new_) == [] ==> FormatCookieHeader(old_ + new_) == FormatCookieHeader(old_)
    ensures PortalCookies(old_) != [] && PortalCookies(new_) != [] ==>
              FormatCookieHeader(old_ + new_) == FormatCookieHeader(old_) + "; " + FormatCookieHeader(new_)
  {
    FilterAppend(old_, new_, SentToPortal);
    if PortalCookies(old_) != [] && PortalCookies(new_) != [] {
      JoinAppend(PortalCookies(old_), PortalCookies(new_), "; ");
    }
    if PortalCookies(old_) == [] {
      assert PortalCookies(old_ + new_) == PortalCookies(new_);
    }
    if PortalCookies(new_) == [] {
      assert PortalCookies(old_ + new_) == PortalCookies(old_);
    }
  }

  // ---------------------------------------------------------------------
  // Stage 1: the login form and its samlRequest
  // ---------------------------------------------------------------------

  const LoginFormRequest: PortalRequest := PortalRequest(Get, LoginFormUrl, None, [], true)

  function LoginForm(portal: PortalRequest -> PortalReply): (r: Result<LoginFormResponse, StageError>)
    ensures var reply := portal(LoginFormRequest);
            && (!IsOk(reply.status) ==> r == Err(LoginFormRequestFailed))
            && (r.Ok? <==> IsOk(reply.status) && FirstMatch(reply.body, SamlRequestPattern).Some?)
            && (IsOk(reply.status) && FirstMatch(reply.body, SamlRequestPattern).None? ==> r == Err(SamlRequestNotFound))
            && (r.Ok? ==> Some(r.value.samlRequest) == FirstMatch(reply.body, SamlRequestPattern)
                          && r.value.cookies == ParseCookies(reply.setCookie))
    ensures r.Ok? ==> |r.value.samlRequest| > 0 && '"' !in r.value.samlRequest
  {
    var reply := portal(LoginFormRequest);
    if !IsOk(reply.status) then Err(LoginFormRequestFailed)
    else
      var cookies := ParseCookies(reply.setCookie);
      match FirstMatch(reply.body, SamlRequestPattern)
      case None => Err(SamlRequestNotFound)
      case Some(token) => Ok(LoginFormResponse(token, cookies))
  }

  // ---------------------------------------------------------------------
  // Stage 2: credentials for the SAMLResponse
  // ---------------------------------------------------------------------

  function AuthRequest(data: AuthData): PortalRequest {
    PortalRequest(
      Post, AuthUrl, Some(FormatCookieHeader(data.cookies)),
      [("userId", data.id), ("password", data.password), ("samlRequest", data.samlRequest)],
      false)
  }

  /**
   * An ok status or a 302 is accepted; a missing SAMLResponse is the only
   * sign of wrong credentials; the cookies are the caller's followed by the
   * newly issued ones, with nothing merged or dropped.
   */
  function Auth(data: AuthData, portal: PortalRequest -> PortalReply): (r: Result<AuthResponse, StageError>)
    ensures var reply := portal(AuthRequest(data));
            && (r == Err(AuthRequestFailed) <==> !IsOk(reply.status) && reply.status != 302)
            && (r == Err(WrongIdOrPassword) <==>
                  (IsOk(reply.status) || reply.status == 302)
                  && FirstMatch(reply.body, SamlResponsePattern).None?)
            && (r.Ok? ==> Some(r.value.samlResponse) == FirstMatch(reply.body, SamlResponsePattern)
                          && r.value.cookies == data.cookies + ParseCookies(reply.setCookie))
    ensures r.Ok? || r == Err(AuthRequestFailed) || r == Err(WrongIdOrPassword)
    ensures r.Ok? ==> |r.value.samlResponse| > 0 && '"' !in r.value.samlResponse
    ensures r.Ok? ==> data.cookies <= r.value.cookies
  {
    var reply := portal(AuthRequest(data));
    if !IsOk(reply.status) && reply.status != 302 then Err(AuthRequestFailed)
    else
      var cookies := ParseCookies(reply.setCookie);
      match FirstMatch(reply.body, SamlResponsePattern)
      case None => Err(WrongIdOrPassword)
      case Some(token) => Ok(AuthResponse(token, data.cookies + cookies))
  }

  // ---------------------------------------------------------------------
  // Stage 3: the SAMLResponse for a session and its CSRF token
  // ---------------------------------------------------------------------

  function LoginRequest(data: LoginData): PortalRequest {
    PortalRequest(Post, LoginUrl, Some(FormatCookieHeader(data.cookies)), [("SAMLResponse", data.samlResponse)], false)
  }

  /**
   * The follow-up request after the redirect: a fixed address (not the
   * `Location` value), carrying only the caller's cookies.
   */
  function LoginSuccessRequest(data: LoginData): PortalRequest {
    PortalRequest(Get, LoginSuccessUrl, Some(FormatCookieHeader(data.cookies)), [], true)
  }

  /** The `Location` header is present and non-empty. */
  predicate HasLocation(reply: PortalReply) {
    reply.location.Some? && reply.location.value != ""
  }

  function Login(data: LoginData, portal: PortalRequest -> PortalReply): (r: Result<LoginResponse, StageError>)
    ensures var first := portal(LoginRequest(data));
            var second := portal(LoginSuccessRequest(data));
            && (r.Ok? <==> IsRedirect(first.status) && HasLocation(first) && IsOk(second.status)
                           && FirstMatch(second.body, CsrfPattern).Some?)
            && (!IsRedirect(first.status) ==> r == Err(LoginRequestFailed))
            && (IsRedirect(first.status) && !HasLocation(first) ==> r == Err(RedirectUrlMissing))
            && (IsRedirect(first.status) && HasLocation(first) && !IsOk(second.status) ==> r == Err(RedirectRequestFailed))
            && ((IsRedirect(first.status) && HasLocation(first) && IsOk(second.status)
                 && FirstMatch(second.body, CsrfPattern).None?) ==> r == Err(CsrfNotFound))
            && (r.Ok? ==> Some(r.value.csrf) == FirstMatch(second.body, CsrfPattern)
                          && r.value.cookies == data.cookies + ParseCookies(second.setCookie))
    ensures r.Ok? ==> |r.value.csrf| > 0 && '"' !in r.value.csrf && r.value.accessToken.None?
    ensures r.Ok? ==> data.cookies <= r.value.cookies
  {
    var first := portal(LoginRequest(data));
    if IsRedirect(first.status) then
      if !HasLocation(first) then Err(RedirectUrlMissing)
      else
        var second := portal(LoginSuccessRequest(data));
        if !IsOk(second.status) then Err(RedirectRequestFailed)
        else
          var cookies := ParseCookies(second.setCookie);
          match FirstMatch(second.body, CsrfPattern)
          case None => Err(CsrfNotFound)
          case Some(token) => Ok(LoginResponse(token, data.cookies + cookies, None))
    else Err(LoginRequestFailed)
  }

  /**
   * The outcome of stage 3 does not depend on the cookies or the body of
   * the redirect itself: two portals that agree on its status and
   * `Location` and on the follow-up reply give the same outcome.
   */
  lemma LoginIgnoresRedirectCookies(data: LoginData, p1: PortalRequest -> PortalReply, p2: PortalRequest -> PortalReply)
    requires p1(LoginRequest(data)).status == p2(LoginRequest(data)).status
    requires p1(LoginRequest(data)).location == p2(LoginRequest(data)).location
    requires p1(LoginSuccessRequest(data)) == p2(LoginSuccessRequest(data))
    ensures Login(data, p1) == Login(data, p2)
  {
  }
}

=== FILE: wrappers.dfy ===
/** Small failure-carrying datatypes shared by every module of the model. */
module Wrappers {

  /** A value that may be absent (a JavaScript `undefined`/`null`). */
  datatype Option<+T> = None | Some(value: T)

  /** The result of an operation that either returns a value or throws. */
  datatype Result<+T, +E> = Ok(value: T) | Err(error: E)

  /**
   * What an awaited broker call delivered: the reply of the remote handler,
   * or a rejection (the remote handler threw, or the broker failed).
   */
  datatype Outcome<+T> = Replied(reply: T) | Failed
}
